=== FILE: README.md ===
# Dataset_YX pipeline core in Dafny

Dataset_YX builds an image-editing dataset in four stages. Each stage is a
`run_<n>.py` driver that works through a directory of parquet shards:

1. Stage 1 asks a chat model to describe the differences between a source
   and a target image. It writes one record per row:
   `{"source", "target", "difference"}`.
2. Stage 2 asks for numbered editing actions and adds `edit`.
3. Stage 3 applies the first action with an image editor and adds the
   base64 text of the edited image as `step_edited`.
4. Stage 4 sends the source image, the step image and the instruction to a
   chat model. It adds the chain of thought and the re-edit instructions as
   `CoT_Reedit`.

This project models the deterministic logic in the drivers and in the three
chat generators, and proves properties of it.

The modules, one concept each:

- **Common.** `Option`, `Result` and the Python exceptions the core raises.
- **Text.** `strip`, `lstrip`/`rstrip` with a character set,
  `str.find`, `str.replace(…, 1)`, and reading text back from between a tag
  pair.
- **Json.** Decoded JSON values. Dicts are kept as ordered field lists.
- **Json codec.** `json.loads`/`json.dumps` are function-typed fields of a
  `Codec`. Every property that needs them to agree takes the named
  assumption `CodecAssumption` as a precondition. It speaks of readable
  values: dicts without repeated keys whose floats are held in the text
  `loads` gives them (Python's `repr`), so that `loads` of a float's text
  yields that very float.
  - `dumps` of a readable value is one line without surrounding blanks;
  - `loads` reads that text back;
  - `loads` yields only readable values. Properties that only need what
    `loads` produces take this half alone (`LoadsReadable`).

  `SampleCodec` is a concrete codec, a prefix code over the same values,
  that is proved to meet the assumption, so the properties resting on it
  hold for at least one codec.
- **Json record operations.** Record indexing (`rec[k]`, with KeyError and
  TypeError), record assignment (`rec[k] = v`), and the "string verbatim,
  anything else `json.dumps`" text selection.
- **Normalize.** `clean_json_block` and the try-parse with its fallback to
  the reply string.
- **Base64.** The standard alphabet with padding (section 4 of RFC 4648):
  encoding and a strict decoder. Each is proved to be the other's inverse.
- **Shards.**
  - `os.path.basename`, and the `._` hidden-file filter.
  - The leftmost `train-<digits>-` match, as the integer key and as the
    digit string. Both fall back to `-1` when nothing matches.
  - A stable insertion sort by the integer key, and the output file name.
- **Records.**
  - The JSONL reader: split into lines, strip, skip blanks, parse in order.
  - The writer, and `zip`.
  - The row loop that stops at the first exception.
- **Images.**
  - `_encode_image_bytes`, with its three-way dispatch on the image cell.
  - `data:image/jpeg;base64,` URLs, from section 3 of RFC 2397.
  - The structure of a chat request.
- **DifferenceGenerator, InstructionGenerator, CotGenerator.** The three
  generator classes:
  - their prompts, verbatim;
  - the order in which they encode the images and place them in the
    request;
  - `process_batch`.
- **Run1–Run4.** The per-row and per-shard logic of each driver.
- **Pipeline.** Properties across stages:
  - the record keys grow from three to six, and the stage-1 fields survive;
  - the base64 hand-off from stage 3 to stage 4 recovers the edited bytes;
  - every file a stage writes loads back unchanged in the next stage.
- **Driver.** The `main` loop shared by all four drivers:
  - discover the shards;
  - process them one after another, each into `<output-dir>/<tag>.jsonal`;
  - stop at the first shard that raises.

The chat endpoint is the `Chat` parameter: messages in, reply text or an
exception out. Stage 3's image editor is the `StepEditor` parameter: image
and action in, edited bytes or an exception out. Directory listings are a
sequence of path strings, and files are sequences of lines.

Behaviour worth noting:

- When a reply does not parse, the stored value is the original reply,
  neither stripped nor unfenced (`Normalize.ReplyField`).
- Stages 2–4 pair records with image rows through `zip`. Only
  `min(#records, #rows)` records are written, and a length difference is
  not reported (`Records.Extend`).
- The shard index comes from `train-(\d+)-` only. Shards with equal keys
  keep their listing order, because `list.sort` is stable
  (`Shards.SortBy`). Unmatched shards get key `-1`, so they sort first.
- Unmatched shards all share the tag `-1`, so they all write the same
  output file, `-1.jsonal` (`Shards.UnindexedShardsCollide`).

## Model

| member | source | states |
|---|---|---|
| Text.StripCharsUnique | src/run_1.py:30 | stripping removes exactly the blank prefix and suffix around the first and last non-blank characters |
| Text.StripChars | src/run_1.py:32 | `strip("`")` leaves no backtick at either end, never lengthens the text, and is empty exactly when the input is all backticks |
| Text.FindFrom | src/run_1.py:33 | the index found is an occurrence of the pattern and no earlier occurrence exists at or after the start |
| Text.ReplaceFirst | src/run_1.py:33 | `replace(pat, rep, 1)` replaces exactly the leftmost occurrence and keeps the text unchanged when there is none |
| Normalize.CleanJsonBlock | src/run_1.py:29-34 | the cleaned text is never longer than the reply; a reply that does not open with three backticks once stripped comes out stripped only, and a fenced reply without a `json` tag comes out with all its outer backticks removed |
| Normalize.CleanKeepsUnfenced | src/run_1.py:29-34 | when the stripped reply does not start with three backticks, the cleaned text is exactly the stripped reply |
| Normalize.CleanFencedJson | src/run_1.py:31-33 | a fenced, `json`-tagged one-line body surrounded by any blanks cleans to exactly that body |
| Normalize.CleanFencedUntagged | src/run_1.py:31-33 | a fenced body without a `json` tag only loses its outer backticks; inner newlines stay |
| Normalize.CleanFencedExample | src/run_2.py:24-29 | the fenced reply "```json\n{\"1\":\"a\"}\n```" cleans to `{"1":"a"}` |
| Normalize.CleanKeepsCompact | src/run_4.py:37-42 | a compact JSON line passes through cleaning unchanged |
| Normalize.Normalize | src/run_1.py:85-91 | the result is Structured exactly when the cleaned reply parses, with the parsed value; otherwise Raw with the original reply |
| Normalize.NormalizeRoundTrip | src/run_4.py:111-116 | a reply that is the JSON text of a readable value normalises back to that value |
| Normalize.NormalizeFencedRoundTrip | src/run_4.py:37-42 | the JSON text of a readable value wrapped in a ```json fence normalises back to the value |
| Normalize.ReplyField | src/run_2.py:92-97 | the stored field is the parse of the cleaned reply, or the uncleaned reply string when parsing fails; it is readable whenever `loads` yields only readable values |
| Normalize.UnparsedReplyKept | src/run_2.py:96-97 | a one-line reply that does not parse is stored as that very string |
| Shards.Basename | src/run_1.py:38 | the basename is the suffix after the last `/` and holds no `/` |
| Shards.BasenameOf | src/run_2.py:33 | the basename of a directory with a trailing `/` followed by a name without `/` is that name |
| Shards.Visible | src/run_1.py:52-55 | a path survives the filter exactly when it is listed and its basename does not start with `._` |
| Shards.HiddenByName | src/run_3.py:50 | a path is hidden exactly when its file name starts with `._` |
| Shards.IndexMatch | src/run_1.py:38 | a match is an occurrence of `train-<digits>-` in the basename with the matcher failing at every earlier position; there is no match exactly when the matcher fails at every position |
| Shards.IndexMatchLeftmost | src/run_1.py:38 | the search yields (i, d) exactly when `train-<d>-` occurs at i in the basename with a maximal digit run and at no earlier position |
| Shards.NoIndexNoPattern | src/run_2.py:34 | when the search fails, the pattern occurs nowhere in the basename |
| Shards.IndexInt | src/run_1.py:36-39 | the key is -1 exactly when there is no match; otherwise it is the decimal value of the matched digits |
| Shards.IndexTag | src/run_1.py:40-43 | the tag is the matched digit string with leading zeros kept, or "-1" |
| Shards.TagAndKeyAgree | src/run_3.py:29-36 | when the tag is all digits its value is the integer key; the tag is not all digits exactly when the key is -1 |
| Shards.LeadingZero | src/run_4.py:47 | a leading zero does not change the integer value of a digit string |
| Shards.IndexOfShardName | src/run_4.py:44-51 | the digits of a shard named `train-<digits>-<rest>` are extracted exactly |
| Shards.SortBy | src/run_1.py:58 | the sort returns a permutation ordered by key and keeps every group of equal keys in listing order (stable) |
| Shards.InsertTies | src/run_2.py:52 | inserting an element keeps the relative order of every equal-key group |
| Shards.WhereAppend | src/run_1.py:52-55 | filtering a concatenation is the concatenation of the filtered parts, so kept paths stay in listing order |
| Shards.Discover | src/run_2.py:45-52 | the discovered shards are a permutation of the visible paths in ascending key order, and shards with equal keys keep their listing order |
| Shards.UnindexedFirst | src/run_3.py:54 | any shard before an unmatched shard is unmatched too: unmatched shards come first |
| Shards.DiscoverExample | src/run_4.py:61-69 | for shards 00002, a hidden `._` file, 00000 and 00010 the order is 00000, 00002, 00010 |
| Shards.OutputName | src/run_1.py:81 | each output file lies directly inside the output directory: after `<dir>/` no further `/` follows |
| Shards.OutputNameInjective | src/run_1.py:81 | two shards write to the same output file exactly when their tags are equal |
| Shards.UnindexedShardsCollide | src/run_2.py:80 | any two unmatched shards are written to the same `-1.jsonal` file |
| Records.SplitLines | src/run_2.py:75 | the lines concatenate back to the file, each ends with its only newline except possibly the last |
| Records.SplitSavedLines | src/run_3.py:75 | splitting a concatenation of newline-terminated lines gives those lines back |
| Records.NonBlankSingle | src/run_2.py:76-77 | a line made only of blanks is skipped; any other line is kept stripped |
| Records.NonBlankAppend | src/run_4.py:89-92 | blank-line skipping works line by line and keeps order |
| Records.ParseAll | src/run_2.py:72-78 | parsing succeeds iff every kept line parses, with one record per line in order; otherwise the first bad line raises JSONDecodeError |
| Records.Load | src/run_2.py:72-78 | loading succeeds iff every non-blank stripped line parses, giving one record per such line in order; otherwise the first bad line raises JSONDecodeError |
| Records.SaveLines | src/run_1.py:97 | one line per record, in order, each the record's JSON text followed by a newline |
| Records.Save | src/run_1.py:97 | when no record's JSON text holds a newline, reading the written text line by line gives back exactly one line per record |
| Records.LoadSaveRoundTrip | src/run_3.py:72-78 | reading back a file of readable records written one compact record per line gives exactly the records written |
| Records.Zip | src/run_2.py:83 | the pairs have the shorter length and pair element i with element i |
| Records.Collect | src/_2_instruction_generator.py:75-84 | a batch succeeds iff every item does, with one result per item in order; otherwise the first failing item's exception |
| Records.RunRows | src/run_3.py:83-102 | rows are written in order until the first one that raises; that row's exception ends the shard and nothing after it is attempted |
| Records.Extend | src/run_4.py:87-119 | the output file is opened exactly when the record file loads, so a parse error aborts with no file and no row; otherwise records are paired with image rows by position and written in order up to the shorter list or the first raising row |
| Json.TextOf | src/run_2.py:85-89 | a string field is embedded verbatim; any other readable value is embedded as text that `loads` reads back as that value |
| Json.Lookup | src/run_3.py:88 | a field is found exactly when the key is present, and then it is one of the record's entries |
| Json.Get | src/run_2.py:86-87 | `rec[k]` yields the value under k; a dict without k raises KeyError and a non-dict raises TypeError |
| Json.Put | src/run_2.py:99 | assignment sets k to v, appends k only when it is new, leaves every other key's value alone and keeps keys distinct |
| Json.Assign | src/run_3.py:101 | assignment changes only key k and preserves well-formedness |
| Json.AssignReadable | src/run_2.py:99 | assigning a readable value to a readable record gives a readable record |
| Json.TextOfRecovers | src/run_2.py:85-89 | the embedded text of a readable value is a string verbatim, and any other value's text parses back to that value |
| Json.TextOfConflates | src/run_4.py:99-103 | two readable values embed the same text exactly when they are equal or one is a raw string holding the other's JSON text |
| Base64.Encode | src/run_3.py:101 | the encoding has four characters per started three-byte block |
| Base64.KnownAnswers | src/run_3.py:101 | the alphabet and padding agree with the test vectors of section 10 of RFC 4648: `Man`, `Ma` and `M` encode to `TWFu`, `TWE=` and `TQ==` |
| Base64.Decode | src/run_4.py:107 | an accepted text has the length the encoding of its bytes has |
| Base64.DecodeEncode | src/run_4.py:106-107 | decoding the encoding of any bytes gives those bytes |
| Base64.EncodeDecode | src/run_4.py:106-107 | every accepted text is the encoding of the bytes it decodes to (the decoder accepts only canonical text) |
| Base64.EncodeDecodeIff | src/run_4.py:107 | a text decodes to b exactly when it is the encoding of b |
| Images.Entry | src/_1_difference_generator.py:20-21 | `d["bytes"]` yields the value of an entry with that key such that no earlier entry has the key, and fails only when no entry has it |
| Images.B64Encode | src/_1_difference_generator.py:21-23 | bytes and bytearrays encode to text that decodes back to them; any other value raises TypeError |
| Images.EncodeImageBytes | src/_1_difference_generator.py:18-25 | encoding succeeds exactly when the cell is bytes, a bytearray, or a dict whose `bytes` entry is one; it then decodes to those bytes; otherwise TypeError |
| Images.EncodeImageBytesIsBase64 | src/_2_instruction_generator.py:20-27 | a dict cell and the raw bytes it holds are encoded to the same standard base64 text |
| Images.JsonIsNoImage | src/_4_cot_reinstruction_generator.py:30-31 | no value read from a record file can be encoded as an image: it raises TypeError |
| Images.UrlImage | src/_2_instruction_generator.py:58 | an image is read only from a URL with the `data:image/jpeg;base64,` header |
| Images.DataUrlRoundTrip | src/_4_cot_reinstruction_generator.py:82-83 | the data URL carries exactly the encoded image |
| DifferenceGenerator.Request | src/_1_difference_generator.py:29-74 | a request exists exactly when both images encode; the source image's error surfaces first |
| DifferenceGenerator.RequestSendsSourceThenTarget | src/_1_difference_generator.py:50-72 | the request carries the fixed prompt, then the source image, then the target image, each recoverable from its URL |
| DifferenceGenerator.DescribeDifference | src/_1_difference_generator.py:27-88 | the reply is the endpoint's answer to that request, or the encoding exception without a call |
| DifferenceGenerator.DescribeAll | src/_1_difference_generator.py:95-98 | one reply per pair, in order, or the exception of the first pair that fails, all earlier pairs having succeeded |
| DifferenceGenerator.ProcessBatch | src/_1_difference_generator.py:90-98 | unequal lengths raise ValueError; otherwise reply i belongs to pair i, the batch succeeds iff every pair does, and a failing batch raises the first failing pair's exception |
| DifferenceGenerator.GuardPrecedesRequests | src/_1_difference_generator.py:92-93 | for unequal lengths the outcome is the same for any endpoint: no request is made |
| InstructionGenerator.UnframeUserText | src/_2_instruction_generator.py:53-54 | the description can be read back from between the `difference_description` tags |
| InstructionGenerator.UserTextInjective | src/_2_instruction_generator.py:53-54 | two descriptions give the same user text exactly when they are equal |
| InstructionGenerator.Request | src/_2_instruction_generator.py:31-62 | a request exists exactly when the image encodes; otherwise TypeError |
| InstructionGenerator.RequestCarriesDescriptionAndImage | src/_2_instruction_generator.py:48-60 | the request carries the fixed prompt, the framed description and the source image |
| InstructionGenerator.GenerateInstructions | src/_2_instruction_generator.py:29-71 | the reply is the endpoint's answer to that request, or the encoding exception without a call |
| InstructionGenerator.ProcessRecord | src/_2_instruction_generator.py:77-83 | as written, every record read from a record file raises: the `difference` lookup's error first, then the `source` lookup's (KeyError for a missing key), and a present source raises the unsupported-image TypeError |
| InstructionGenerator.ProcessBatch | src/_2_instruction_generator.py:73-84 | one result per record in order iff every record succeeds |
| InstructionGenerator.ProcessBatchFailsUnlessEmpty | src/_2_instruction_generator.py:83 | as written, a batch of records read from a record file succeeds exactly when it is empty, failing with the first record's exception |
| InstructionGenerator.ProcessBatchExample | src/_2_instruction_generator.py:83 | a stage-1 record with source `src_0.jpg` makes the batch raise the unsupported-image TypeError |
| InstructionGenerator.ProcessPaired | src/run_2.py:83-91 | paired by position with image rows, each result is the endpoint's reply for that record's description text and that row's image |
| InstructionGenerator.ProcessPairedSucceeds | src/run_2.py:83-91 | for equal lengths the paired batch succeeds exactly when every record has a description and every request is answered |
| CotGenerator.UnframeUserText | src/_4_cot_reinstruction_generator.py:71-74 | the instruction can be read back from between the `desired_editing_instruction` tags |
| CotGenerator.UserTextInjective | src/_4_cot_reinstruction_generator.py:71-74 | two instructions give the same user text exactly when they are equal |
| CotGenerator.Request | src/_4_cot_reinstruction_generator.py:53-86 | a request exists exactly when both images encode; the step image is encoded first, so its error surfaces first |
| CotGenerator.RequestSendsSourceThenStep | src/_4_cot_reinstruction_generator.py:76-86 | the parts are text, source image, step image, the reverse of the parameter order |
| CotGenerator.Generate | src/_4_cot_reinstruction_generator.py:33-92 | the reply is the endpoint's answer to that request, or the encoding exception without a call |
| Run1.Record | src/run_1.py:92-96 | a stage-1 record has exactly the keys source, target, difference in that order, holding the two names and the normalised reply |
| Run1.Shard | src/run_1.py:73-97 | a batch exception, including the length check, raises before the output file is opened; otherwise the file is opened and holds one record per row in row order |
| Run1.ShardShape | src/run_1.py:84-97 | every record of a completed shard has the three stage-1 keys, and is readable when the image names are and `loads` yields only readable values |
| Run1.ColorReplyParsed | src/run_1.py:87-88 | a reply that is the JSON text of a mapping is stored as that mapping |
| Run1.OopsKept | src/run_1.py:89-91 | the unparsable reply `oops` is stored as the string `oops` |
| Run1.TwoRows | src/run_1.py:84-97 | a two-row shard whose replies both arrive writes the two records in row order |
| Run1.TwoRowScenario | src/run_1.py:84-97 | of two rows answered with a JSON mapping and with `oops`, the first stores the mapping and the second the string |
| Run2.Reply | src/run_2.py:85-91 | the request uses the record's description text and the row's image; a missing description raises KeyError first |
| Run2.Row | src/run_2.py:92-100 | the row sets only `edit`, to the normalised reply, and keeps a readable record readable when `loads` yields only readable values |
| Run2.Shard | src/run_2.py:72-100 | the output file is opened exactly when the record file loads; records pair with images by position; the output holds the extended records up to the shorter list or the first exception |
| Run2.StructuredDescriptionRecovered | src/run_2.py:85-91 | a structured description read back from the prompt parses to the stored value |
| Run3.Action | src/run_3.py:85-89 | a string edit is used verbatim; a dict gives its "1" action or ""; anything else raises AttributeError |
| Run3.ActionOneOnly | src/run_3.py:88 | two dict edits that agree on action "1" select the same action, whatever else they hold |
| Run3.ActionExample | src/run_3.py:85-89 | `{"1":"make sky blue","2":"add tree"}` and `"make sky blue"` both select "make sky blue" |
| Run3.Edited | src/run_3.py:85-97 | the editor receives the row's image and the selected action; a missing edit or a bad edit type raises first |
| Run3.Row | src/run_3.py:101-102 | the row sets only `step_edited`, to the base64 text of the edited bytes, which decodes back to them |
| Run3.RowReadable | src/run_3.py:101-102 | a row keeps a readable record readable under any codec, since it stores a string |
| Run3.Shard | src/run_3.py:72-102 | the output file is opened exactly when the record file loads; records pair with images by position; the output holds the extended records up to the shorter list or the first exception |
| Run4.StepImage | src/run_4.py:106-107 | the step image decodes exactly when `step_edited` is canonical base64, and its encoding is that text |
| Run4.StepImageOfEncoded | src/run_4.py:106-107 | the text stage 3 stores decodes to exactly the stored bytes |
| Run4.Reply | src/run_4.py:99-110 | the generator receives the decoded step image, the row's image and the edit text; `rec["edit"]` is read before `step_edited` |
| Run4.Row | src/run_4.py:111-119 | the row sets only `CoT_Reedit`, to the normalised reply, and keeps a readable record readable when `loads` yields only readable values |
| Run4.Shard | src/run_4.py:87-119 | the output file is opened exactly when the record file loads; records pair with images by position; the output holds the extended records up to the shorter list or the first exception |
| Run4.RowSendsSourceThenStep | src/run_4.py:110 | the request carries the source image first and the decoded step image second |
| Pipeline.ThreeAppends | src/run_4.py:118 | three single-key assignments of new keys append them in order and keep the stage-1 fields |
| Pipeline.KeysAccumulate | src/run_2.py:99-100 | a record through stages 2–4 has the six keys in order, with the stage-1 fields unchanged |
| Pipeline.StepImageHandOff | src/run_4.py:106-110 | stage 4 sees the same edit as stage 3 and exactly the bytes stage 3's editor returned |
| Pipeline.LoadedReadable | src/run_3.py:78 | every loaded record is readable when `loads` yields only readable values |
| Pipeline.Stage1HandOff | src/run_1.py:97 | when the image names are readable, the stage-1 file reads back as exactly the records written |
| Pipeline.Stage2HandOff | src/run_2.py:100 | the stage-2 file reads back as exactly the records written |
| Pipeline.Stage3HandOff | src/run_3.py:102 | the stage-3 file reads back as exactly the records written |
| Driver.Completed | src/run_2.py:54-100 | the number of shards that complete before the first one that raises; it covers every shard exactly when none raises |
| Driver.RunShards | src/run_3.py:56-102 | shards run in order, each into the file named by its tag (a later shard with the same tag replaces the earlier file); the run ends with the first failing shard's exception, and that shard's file is listed, with the records written before the exception, only when the shard had opened it |
| Driver.RunStage | src/run_1.py:51-83 | files follow the discovered order and are named by tag; the run completes exactly when every visible shard does |
| Driver.DiscoveredSucceed | src/run_4.py:61-71 | every discovered shard completes exactly when every visible listed shard does |
| Driver.AllShardsComplete | src/run_1.py:51-83 | when no shard raises, every discovered shard gets its tagged file, in discovery order |
| Driver.RunStageExample | src/run_4.py:94-95 | shards 00002, a hidden file, 00000 and 00010 are written to `00000.jsonal`, `00002.jsonal` and `00010.jsonal` in that order |

## Left out

- The OpenAI endpoints (`chat.completions.create`, `images.edit`) are the `Chat` and `StepEditor` parameters. The model name, `api_key` and the `n` option are not modelled.
- `_3_step_image_generator.py` is not part of this model. Its PIL re-encoding, mask construction and API call are folded into `StepEditor`.
- PIL `Image.open` in stage 3 is left out. It is an image codec, and its failure is one of the editor's exceptions.
- Parquet reading, `glob`, file opening and writing, `print`, `df.info()` and argparse are I/O and CLI glue. A directory is a list of paths and a file is its lines. `glob`'s own skipping of dot files is not modelled.
- A parquet cell without a `bytes` or `path` key is not modelled. A cell is a `Run1.Cell` with both parts present.
- The JSON grammar and `ensure_ascii` are not re-implemented. `json.loads`/`json.dumps` are the abstract `Codec`, and properties that need them to agree assume `CodecAssumption`. A float is kept as the number text `json.dumps` writes for it (`NaN` included); no float arithmetic is modelled, and the codec assumption covers only values whose float texts `loads` reads back as themselves.
- Lines are split at `\n` only. Python's universal-newline translation of `\r` is not modelled.
- `\d` is restricted to the ASCII digits, so Unicode digits are not modelled.
- The three identical copies of `clean_json_block`, the index helpers and `_encode_image_bytes` are modelled once each. They are cited at the copy whose property is proved.
- Run4.StepImage: is stricter than Python's non-validating `b64decode`. It accepts only canonical padded base64, while Python discards stray characters. This is enough for the stage-3 hand-off, which only ever stores canonical text.
- Run1.Shard: does not model a reply whose content is `None`, which the OpenAI client allows. `Chat` yields a string or an exception, so every stage-1 failure happens in `process_batch`, before the output file is opened. In Python such a reply passes `process_batch`, the file is opened, the rows before it are written, and `clean_json_block(None)` raises AttributeError inside the open file. In stages 2 and 4 the same reply fails only its own row, which the model covers as the endpoint raising.
- Normalize.Normalize: turns every `loads` failure into the raw-reply fallback. Python catches only JSONDecodeError, so a ValueError for an integer literal past CPython's digit limit, or a RecursionError on very deep nesting, would end the shard instead. These interpreter limits are not modelled.
- Base64.Decode: does not model the ValueError Python raises for non-ASCII input. Every text it rejects is simply `None`.
- Idempotence of re-running a stage is not stated separately. Every modelled function is deterministic in its inputs and oracles, so a re-run writes the same files.

## Findings

| source | as written | input that shows it | evidently intended | confidence | as-written member | corrected member |
|---|---|---|---|---|---|---|
| src/_2_instruction_generator.py:83 | `process_batch` passes `rec["source"]`, a value read from a record file, as the image to encode | one stage-1 record `{"source": "src_0.jpg", "target": "tgt_0.jpg", "difference": "1: ..."}`: the name string raises TypeError before any request | pair each record with the image row at the same position, as the stage-2 driver does | not executed | InstructionGenerator.ProcessBatchExample | InstructionGenerator.ProcessPairedSucceeds |

=== FILE: base64.dfy ===
/** Standard base64 (section 4 of RFC 4648, with `=` padding), as
    `base64.b64encode(...).decode("utf-8")` writes it and
    `base64.b64decode` reads it back. Stage 3 stores the edited image in
    this form and stage 4 decodes it. */
module Base64 {
  import opened Common

  newtype byte = x: int | 0 <= x < 256

  /** A value of one base64 digit. */
  type Sextet = x: int | 0 <= x < 64

  /** The alphabet of section 4: A-Z, a-z, 0-9, '+', '/'. */
  function CharOf(v: Sextet): char {
    if v < 26 then ('A' as int + v) as char
    else if v < 52 then ('a' as int + (v - 26)) as char
    else if v < 62 then ('0' as int + (v - 52)) as char
    else if v == 62 then '+'
    else '/'
  }

  /** The digit value of a character, if it belongs to the alphabet. */
  function ValueOf(c: char): Option<Sextet> {
    if 'A' <= c <= 'Z' then Some(c as int - 'A' as int)
    else if 'a' <= c <= 'z' then Some(c as int - 'a' as int + 26)
    else if '0' <= c <= '9' then Some(c as int - '0' as int + 52)
    else if c == '+' then Some(62)
    else if c == '/' then Some(63)
    else None
  }

  lemma ValueOfCharOf(v: Sextet)
    ensures ValueOf(CharOf(v)) == Some(v)
    ensures CharOf(v) != '='
  {
  }

  lemma CharOfValueOf(c: char)
    requires ValueOf(c).Some?
    ensures CharOf(ValueOf(c).value) == c
  {
  }

  /** The four digits of a block of three bytes, most significant bits
      first; the padded forms use the first digits with zero low bits. */
  function Digit0(b0: byte): Sextet { b0 as int / 4 }
  function Digit1(b0: byte, b1: byte): Sextet { (b0 as int % 4) * 16 + b1 as int / 16 }
  function Digit2(b1: byte, b2: byte): Sextet { (b1 as int % 16) * 4 + b2 as int / 64 }
  function Digit3(b2: byte): Sextet { b2 as int % 64 }

  /** The bytes a block of digits stands for. */
  function Byte0(c0: Sextet, c1: Sextet): byte { (c0 as int * 4 + c1 as int / 16) as byte }
  function Byte1(c1: Sextet, c2: Sextet): byte { ((c1 as int % 16) * 16 + c2 as int / 4) as byte }
  function Byte2(c2: Sextet, c3: Sextet): byte { ((c2 as int % 4) * 64 + c3 as int) as byte }

  /** Splitting bytes into digits and joining them again is the identity. */
  lemma JoinSplit(b0: byte, b1: byte, b2: byte)
    ensures Byte0(Digit0(b0), Digit1(b0, b1)) == b0
    ensures Byte1(Digit1(b0, b1), Digit2(b1, b2)) == b1
    ensures Byte2(Digit2(b1, b2), Digit3(b2)) == b2
  {
  }

  /** Joining digits into bytes and splitting them again is the identity. */
  lemma SplitJoin(c0: Sextet, c1: Sextet, c2: Sextet, c3: Sextet)
    ensures Digit0(Byte0(c0, c1)) == c0
    ensures Digit1(Byte0(c0, c1), Byte1(c1, c2)) == c1
    ensures Digit2(Byte1(c1, c2), Byte2(c2, c3)) == c2
    ensures Digit3(Byte2(c2, c3)) == c3
  {
  }

  function EncodeBlock(b0: byte, b1: byte, b2: byte): string {
    [CharOf(Digit0(b0)), CharOf(Digit1(b0, b1)), CharOf(Digit2(b1, b2)), CharOf(Digit3(b2))]
  }

  /** `b64encode`: full blocks, then one padded block for a remainder of
      one or two bytes. */
  function Encode(b: seq<byte>): (r: string)
    ensures |r| == 4 * ((|b| + 2) / 3)
    decreases |b|
  {
    if |b| == 0 then ""
    else if |b| == 1 then
      [CharOf(Digit0(b[0])), CharOf(Digit1(b[0], 0)), '=', '=']
    else if |b| == 2 then
      [CharOf(Digit0(b[0])), CharOf(Digit1(b[0], b[1])), CharOf(Digit2(b[1], 0)), '=']
    else
      BlockCount(|b|);
      EncodeBlock(b[0], b[1], b[2]) + Encode(b[3..])
  }

  /** One more full block, one more group of four characters. */
  lemma BlockCount(n: nat)
    requires n >= 3
    ensures 4 * ((n + 2) / 3) == 4 + 4 * ((n - 3 + 2) / 3)
  {
  }

  /** Four digits without padding make three bytes. */
  function DecodeFull(q: string): Option<seq<byte>>
    requires |q| == 4
  {
    match (ValueOf(q[0]), ValueOf(q[1]), ValueOf(q[2]), ValueOf(q[3]))
    case (Some(c0), Some(c1), Some(c2), Some(c3)) =>
      Some([Byte0(c0, c1), Byte1(c1, c2), Byte2(c2, c3)])
    case _ => None
  }

  /** The last block may carry one or two `=`; the bits the padding leaves
      unused must be zero. */
  function DecodeLast(q: string): Option<seq<byte>>
    requires |q| == 4
  {
    if q[2] == '=' && q[3] == '=' then
      match (ValueOf(q[0]), ValueOf(q[1]))
      case (Some(c0), Some(c1)) =>
        if c1 % 16 == 0 then Some([Byte0(c0, c1)]) else None
      case _ => None
    else if q[3] == '=' then
      match (ValueOf(q[0]), ValueOf(q[1]), ValueOf(q[2]))
      case (Some(c0), Some(c1), Some(c2)) =>
        if c2 % 4 == 0 then Some([Byte0(c0, c1), Byte1(c1, c2)]) else None
      case _ => None
    else DecodeFull(q)
  }

  /** `b64decode` on canonical input: blocks of four digits, padding only
      in the last block. Anything else is rejected. */
  function Decode(s: string): (r: Option<seq<byte>>)
    ensures r.Some? ==> |s| == 4 * ((|r.value| + 2) / 3)
    decreases |s|
  {
    if |s| == 0 then Some([])
    else if |s| < 4 then None
    else if |s| == 4 then DecodeLast(s)
    else
      match DecodeFull(s[..4])
      case None => None
      case Some(head) =>
        match Decode(s[4..])
        case None => None
        case Some(tail) => Some(head + tail)
  }

  lemma BlockRoundTrip(b0: byte, b1: byte, b2: byte)
    ensures DecodeFull(EncodeBlock(b0, b1, b2)) == Some([b0, b1, b2])
    ensures DecodeLast(EncodeBlock(b0, b1, b2)) == Some([b0, b1, b2])
  {
    ValueOfCharOf(Digit0(b0));
    ValueOfCharOf(Digit1(b0, b1));
    ValueOfCharOf(Digit2(b1, b2));
    ValueOfCharOf(Digit3(b2));
    JoinSplit(b0, b1, b2);
  }

  /** The padded block for one trailing byte decodes back to it. */
  lemma OneByteRoundTrip(b0: byte)
    ensures DecodeLast([CharOf(Digit0(b0)), CharOf(Digit1(b0, 0)), '=', '=']) == Some([b0])
  {
    var c0, c1 := Digit0(b0), Digit1(b0, 0);
    var q := [CharOf(c0), CharOf(c1), '=', '='];
    ValueOfCharOf(c0);
    ValueOfCharOf(c1);
    assert ValueOf(q[0]) == Some(c0) && ValueOf(q[1]) == Some(c1);
    assert q[2] == '=' && q[3] == '=';
  }

  /** The padded block for two trailing bytes decodes back to them. */
  lemma TwoBytesRoundTrip(b0: byte, b1: byte)
    ensures DecodeLast([CharOf(Digit0(b0)), CharOf(Digit1(b0, b1)), CharOf(Digit2(b1, 0)), '=']) == Some([b0, b1])
  {
    var c0, c1, c2 := Digit0(b0), Digit1(b0, b1), Digit2(b1, 0);
    var q := [CharOf(c0), CharOf(c1), CharOf(c2), '='];
    ValueOfCharOf(c0);
    ValueOfCharOf(c1);
    ValueOfCharOf(c2);
    JoinSplit(b0, b1, 0);
    assert ValueOf(q[0]) == Some(c0) && ValueOf(q[1]) == Some(c1) && ValueOf(q[2]) == Some(c2);
    assert q[2] != '=' && q[3] == '=';
  }

  lemma DecodeEncodeOne(b: seq<byte>)
    requires |b| == 1
    ensures Decode(Encode(b)) == Some(b)
  {
    var q := [CharOf(Digit0(b[0])), CharOf(Digit1(b[0], 0)), '=', '='];
    assert Encode(b) == q;
    OneByteRoundTrip(b[0]);
    assert [b[0]] == b;
  }

  lemma DecodeEncodeTwo(b: seq<byte>)
    requires |b| == 2
    ensures Decode(Encode(b)) == Some(b)
  {
    var q := [CharOf(Digit0(b[0])), CharOf(Digit1(b[0], b[1])), CharOf(Digit2(b[1], 0)), '='];
    assert Encode(b) == q;
    TwoBytesRoundTrip(b[0], b[1]);
    assert [b[0], b[1]] == b;
  }

  lemma DecodeEncodeThree(b: seq<byte>)
    requires |b| == 3
    ensures Decode(Encode(b)) == Some(b)
  {
    assert Encode(b) == EncodeBlock(b[0], b[1], b[2]) + Encode(b[3..]);
    assert Encode(b) == EncodeBlock(b[0], b[1], b[2]);
    BlockRoundTrip(b[0], b[1], b[2]);
    assert [b[0], b[1], b[2]] == b;
  }

  lemma FirstThree(b: seq<byte>)
    requires |b| >= 3
    ensures [b[0], b[1], b[2]] + b[3..] == b
  {
  }

  /** A full block in front of decodable text decodes to its three bytes
      followed by what that text decodes to. */
  lemma DecodeCons(head: string, rest: string, h: seq<byte>, t: seq<byte>)
    requires |head| == 4 && |rest| > 0
    requires DecodeFull(head) == Some(h) && Decode(rest) == Some(t)
    ensures Decode(head + rest) == Some(h + t)
  {
    var s := head + rest;
    assert s[..4] == head && s[4..] == rest;
  }

  /** One full block in front of text that decodes to the remaining bytes. */
  lemma DecodeEncodeStep(b: seq<byte>)
    requires |b| > 3 && Decode(Encode(b[3..])) == Some(b[3..])
    ensures Decode(Encode(b)) == Some(b)
  {
    var head, rest := EncodeBlock(b[0], b[1], b[2]), Encode(b[3..]);
    assert Encode(b) == head + rest;
    BlockRoundTrip(b[0], b[1], b[2]);
    FirstThree(b);
    DecodeCons(head, rest, [b[0], b[1], b[2]], b[3..]);
  }

  /** Decoding what `Encode` wrote gives the bytes back. */
  lemma {:induction false} DecodeEncode(b: seq<byte>)
    ensures Decode(Encode(b)) == Some(b)
    decreases |b|
  {
    if |b| == 1 {
      DecodeEncodeOne(b);
    } else if |b| == 2 {
      DecodeEncodeTwo(b);
    } else if |b| == 3 {
      DecodeEncodeThree(b);
    } else if |b| > 3 {
      DecodeEncode(b[3..]);
      DecodeEncodeStep(b);
    }
  }

  lemma DecodeFullCanonical(q: string)
    requires |q| == 4 && DecodeFull(q).Some?
    ensures var b := DecodeFull(q).value; |b| == 3 && EncodeBlock(b[0], b[1], b[2]) == q
  {
    var c0, c1, c2, c3 := ValueOf(q[0]).value, ValueOf(q[1]).value, ValueOf(q[2]).value, ValueOf(q[3]).value;
    SplitJoin(c0, c1, c2, c3);
    CharOfValueOf(q[0]);
    CharOfValueOf(q[1]);
    CharOfValueOf(q[2]);
    CharOfValueOf(q[3]);
  }

  /** Digits with zero low bits in a padded block survive a round trip
      through the bytes they stand for. */
  lemma SplitJoinOne(c0: Sextet, c1: Sextet)
    requires c1 % 16 == 0
    ensures Digit0(Byte0(c0, c1)) == c0 && Digit1(Byte0(c0, c1), 0) == c1
  {
  }

  lemma SplitJoinTwo(c0: Sextet, c1: Sextet, c2: Sextet)
    requires c2 % 4 == 0
    ensures Digit0(Byte0(c0, c1)) == c0
    ensures Digit1(Byte0(c0, c1), Byte1(c1, c2)) == c1
    ensures Digit2(Byte1(c1, c2), 0) == c2
  {
  }

  lemma OnePaddedCanonical(q: string)
    requires |q| == 4 && q[2] == '=' && q[3] == '=' && DecodeLast(q).Some?
    ensures var b := DecodeLast(q).value;
      |b| == 1 && [CharOf(Digit0(b[0])), CharOf(Digit1(b[0], 0)), '=', '='] == q
  {
    var c0, c1 := ValueOf(q[0]).value, ValueOf(q[1]).value;
    assert DecodeLast(q).value == [Byte0(c0, c1)];
    SplitJoinOne(c0, c1);
    CharOfValueOf(q[0]);
    CharOfValueOf(q[1]);
  }

  lemma TwoPaddedCanonical(q: string)
    requires |q| == 4 && q[2] != '=' && q[3] == '=' && DecodeLast(q).Some?
    ensures var b := DecodeLast(q).value;
      |b| == 2 && [CharOf(Digit0(b[0])), CharOf(Digit1(b[0], b[1])), CharOf(Digit2(b[1], 0)), '='] == q
  {
    var c0, c1, c2 := ValueOf(q[0]).value, ValueOf(q[1]).value, ValueOf(q[2]).value;
    assert DecodeLast(q).value == [Byte0(c0, c1), Byte1(c1, c2)];
    SplitJoinTwo(c0, c1, c2);
    CharOfValueOf(q[0]);
    CharOfValueOf(q[1]);
    CharOfValueOf(q[2]);
  }

  lemma DecodeLastCanonical(q: string)
    requires |q| == 4 && DecodeLast(q).Some?
    ensures Encode(DecodeLast(q).value) == q
  {
    var b := DecodeLast(q).value;
    if q[2] == '=' && q[3] == '=' {
      OnePaddedCanonical(q);
    } else if q[3] == '=' {
      TwoPaddedCanonical(q);
    } else {
      DecodeFullCanonical(q);
      assert Encode(b) == EncodeBlock(b[0], b[1], b[2]) + Encode([]);
    }
  }

  /** `Decode` accepts only what `Encode` writes: whatever it decodes
      re-encodes to the very same text. */
  lemma {:induction false} EncodeDecode(s: string)
    requires Decode(s).Some?
    ensures Encode(Decode(s).value) == s
    decreases |s|
  {
    if |s| == 4 {
      DecodeLastCanonical(s);
    } else if |s| > 4 {
      var head, tail := DecodeFull(s[..4]).value, Decode(s[4..]).value;
      DecodeFullCanonical(s[..4]);
      EncodeDecode(s[4..]);
      var b := head + tail;
      assert |tail| > 0;
      assert b[3..] == tail;
      assert Encode(b) == EncodeBlock(b[0], b[1], b[2]) + Encode(tail);
      assert s == s[..4] + s[4..];
    }
  }

  /** The two directions together: `Decode` is exactly the inverse of
      `Encode`. */
  lemma EncodeDecodeIff(s: string, b: seq<byte>)
    ensures Decode(s) == Some(b) <==> Encode(b) == s
  {
    if Decode(s) == Some(b) {
      EncodeDecode(s);
    }
    if Encode(b) == s {
      DecodeEncode(b);
    }
  }

  /** The test vectors of section 10 of RFC 4648 for the three padding
      cases: "Man", "Ma" and "M". */
  lemma KnownAnswers()
    ensures Encode([77, 97, 110]) == "TWFu"
    ensures Encode([77, 97]) == "TWE="
    ensures Encode([77]) == "TQ=="
  {
  }
}

=== FILE: common.dfy ===
/** Failure-compatible wrappers shared by every stage, and the exceptions
    the pipeline can raise, as values. */
module Common {

  /** An optional value: `None` is a missing key or a failed parse. */
  datatype Option<+T> = None | Some(value: T) {
    function GetOr(default: T): T {
      match this
      case Some(v) => v
      case None => default
    }
  }

  /** The exceptions the drivers and generators can raise. None of them is
      caught inside a shard: each one ends the shard (and the process). */
  datatype Error =
    | ValueError(message: string)       // process_batch length check
    | KeyError(key: string)             // rec["..."] on a missing key
    | TypeError(message: string)        // wrong cell / record shape
    | AttributeError(message: string)   // .get on a non-dict edit value
    | JsonDecodeError(line: string)     // a JSONL line that does not parse
    | Base64Error(text: string)         // b64decode on malformed input
    | ExternalError(message: string)    // transport, API or image-codec failure

  /** A computation that either yields a value or raises one `Error`. */
  datatype Result<+T> = Success(value: T) | Failure(error: Error) {
    predicate IsFailure() {
      Failure?
    }

    function PropagateFailure<U>(): Result<U>
      requires Failure?
    {
      Failure(error)
    }

    function Extract(): T
      requires Success?
    {
      value
    }
  }
}

=== FILE: cot_generator.dfy ===
/** Stage 4's generator (`MultiModalAnalysisGenerator`): one chat request
    per record carrying the editing instruction inside a tag pair, the
    source image and the first-step edited image, asking for a chain of
    thought and re-editing instructions. */
module CotGenerator {
  import opened Common
  import opened Text
  import opened Images

  const SystemPrompt: string :=
    "You are a helpful assistant for visual thinking, design, and editing. "
    + "When given source image (the first image), desired editing instruction in JSON, and the first-step edited image (the second image), "
    + "you will perform two tasks:"
    + "1) Provide a step-by-step chain of thought assessing (a) instruction compliance & subject integrity, "
    + "(b) visual realism (geometry, lighting consistency, physical logic), (c)contextual consistency(e.g., scene-element matching, cross-attribute logic, (d)and ethics/safety. "
    + "!!!Only note unusual issues if not explicitly instructed, concise without preamble."
    + "2) Generate re-editing instructions to refine the first-step result, concise without preamble. "
    + "You should answer the question without preamble or additional explanation."
    + "The Output should follow the structure that"
    + "each keys are a string like 'CoT_1','CoT_2','CoT_3', ... & 'Re_Edit_1', 'Re_Edit_2', ...."
    + "and each value is a string of CoT and re-editing description corresponding to the each keys separately. "

  const OpenTag := "<desired_editing_instruction>"
  const CloseTag := "</desired_editing_instruction>"
  const Instruction := "Please output a step-by-step chain of thought and re-editing instructions result as required."

  /** The text part of the user message: the editing instruction framed by
      the tag pair, then the fixed request. */
  function UserText(editText: string): string {
    OpenTag + editText + CloseTag + Instruction
  }

  /** The instruction travels intact: it can be read back from between the
      tags. */
  lemma UnframeUserText(editText: string)
    ensures Unframe(UserText(editText), OpenTag, CloseTag + Instruction) == Some(editText)
  {
    assert UserText(editText) == OpenTag + editText + (CloseTag + Instruction);
    UnframeFramed(OpenTag, editText, CloseTag + Instruction);
  }

  /** Different instructions give different requests. */
  lemma UserTextInjective(a: string, b: string)
    ensures UserText(a) == UserText(b) <==> a == b
  {
    if UserText(a) == UserText(b) {
      UnframeUserText(a);
      UnframeUserText(b);
    }
  }

  /** The request, or the TypeError raised while encoding an image. The
      step image is encoded first, so when both images are unusable it is
      the step image's error that surfaces. */
  function Request(stepImage: PyValue, sourceImage: PyValue, editText: string): (r: Result<seq<Message>>)
    ensures r.Success? <==> ImageBytes(stepImage).Some? && ImageBytes(sourceImage).Some?
    ensures ImageBytes(stepImage).None? ==> r == Failure(EncodeImageBytes(stepImage).error)
    ensures r.Failure? ==> r.error.TypeError?
  {
    var step :- EncodeImageBytes(stepImage);
    var source :- EncodeImageBytes(sourceImage);
    Success([SystemMessage(SystemPrompt),
             UserMessage([TextPart(UserText(editText)), ImagePart(DataUrl(source)), ImagePart(DataUrl(step))])])
  }

  /** The message order is text, then the source image, then the step
      image: the reverse of the argument order, and the order the system
      prompt announces ("the first image" is the source). */
  lemma RequestSendsSourceThenStep(stepImage: PyValue, sourceImage: PyValue, editText: string)
    requires Request(stepImage, sourceImage, editText).Success?
    ensures var m := Request(stepImage, sourceImage, editText).value;
      && |m| == 2 && m[0] == SystemMessage(SystemPrompt) && m[1].UserMessage?
      && PartTexts(m[1].parts) == [UserText(editText)]
      && PartImages(m[1].parts) == [ImageBytes(sourceImage), ImageBytes(stepImage)]
  {
    var step, source := EncodeImageBytes(stepImage).value, EncodeImageBytes(sourceImage).value;
    TextAndTwoImages(UserText(editText), DataUrl(source), DataUrl(step));
    DataUrlRoundTrip(source);
    DataUrlRoundTrip(step);
  }

  /** `generate`: the reply text, or the exception raised on the way. */
  function Generate(chat: Chat, stepImage: PyValue, sourceImage: PyValue, editText: string): (r: Result<string>)
    ensures Request(stepImage, sourceImage, editText).Failure? ==>
      r == Failure(Request(stepImage, sourceImage, editText).error)
    ensures Request(stepImage, sourceImage, editText).Success? ==>
      r == chat(Request(stepImage, sourceImage, editText).value)
  {
    var m :- Request(stepImage, sourceImage, editText);
    chat(m)
  }
}

=== FILE: difference_generator.dfy ===
/** Stage 1's generator (`DifferenceDescriptionGenerator`): one chat request
    per (source, target) image pair, asking for the differences between the
    two images, and the batch loop with its length check. */
module DifferenceGenerator {
  import opened Common
  import opened Base64
  import opened Images
  import opened Records

  const SystemPrompt: string :=
    "You are a helpful visual assistant. "
    + "When given two images, you will analyze and describe their differences "
    + "according to categories like object, style, color, motion, 2D & 3D spatial, "
    + "texture, and shape differences. "
    + "If a category has no obvious difference, omit it."
    + "You should answer the question without preamble or additional explanation."
    + "You must output your answer as a single valid JSON object: "
    + "each key is a stringified number ('1','2','3',...) and each value is a string describing one difference. "
    + "Do not include Markdown formatting, code blocks, or any explanation outside the JSON. "
    + "Ensure the JSON is valid and parsable."

  const RequestText: string :=
    "I have two similar images: the first is the source image, the second is the target image. "
    + "Please describe the differences between them as defiend format requirments. "
    + "providing one paragraph per category, numbered sequentially. "
    + "Each paragraph should be a single sentence starting with \U{201C}<sequence number>: There is a difference at <category>, \U{2026}\U{201D}."

  /** The request for one pair, or the TypeError an image raises while it is
      encoded (the source image is encoded first). */
  function Request(source: PyValue, target: PyValue): (r: Result<seq<Message>>)
    ensures r.Success? <==> ImageBytes(source).Some? && ImageBytes(target).Some?
    ensures ImageBytes(source).None? ==> r == Failure(EncodeImageBytes(source).error)
  {
    var s :- EncodeImageBytes(source);
    var t :- EncodeImageBytes(target);
    Success([SystemMessage(SystemPrompt),
             UserMessage([TextPart(RequestText), ImagePart(DataUrl(s)), ImagePart(DataUrl(t))])])
  }

  /** The request carries the fixed instructions and both images, the source
      image before the target image. */
  lemma RequestSendsSourceThenTarget(source: PyValue, target: PyValue)
    requires Request(source, target).Success?
    ensures var m := Request(source, target).value;
      && |m| == 2 && m[0] == SystemMessage(SystemPrompt) && m[1].UserMessage?
      && PartTexts(m[1].parts) == [RequestText]
      && PartImages(m[1].parts) == [ImageBytes(source), ImageBytes(target)]
  {
    var s, t := EncodeImageBytes(source).value, EncodeImageBytes(target).value;
    TextAndTwoImages(RequestText, DataUrl(s), DataUrl(t));
    DataUrlRoundTrip(s);
    DataUrlRoundTrip(t);
  }

  /** `describe_difference`: the reply text for one pair. */
  function DescribeDifference(chat: Chat, source: PyValue, target: PyValue): (r: Result<string>)
    ensures Request(source, target).Failure? ==> r == Failure(Request(source, target).error)
    ensures Request(source, target).Success? ==> r == chat(Request(source, target).value)
  {
    var m :- Request(source, target);
    chat(m)
  }

  const LengthMismatch := "source_paths and target_paths must have the same length"

  /** The replies for all pairs, in order, or the first exception. */
  function DescribeAll(chat: Chat, pairs: seq<(PyValue, PyValue)>): (r: Result<seq<string>>)
    ensures r.Success? ==> |r.value| == |pairs|
    ensures r.Success? ==> forall i :: 0 <= i < |pairs| ==> DescribeDifference(chat, pairs[i].0, pairs[i].1) == Success(r.value[i])
    ensures r.Success? <==> forall i :: 0 <= i < |pairs| ==> DescribeDifference(chat, pairs[i].0, pairs[i].1).Success?
    ensures r.Failure? ==> exists i :: 0 <= i < |pairs| && DescribeDifference(chat, pairs[i].0, pairs[i].1) == Failure(r.error)
                                  && forall j :: 0 <= j < i ==> DescribeDifference(chat, pairs[j].0, pairs[j].1).Success?
    decreases |pairs|
  {
    if |pairs| == 0 then Success([])
    else
      var first := DescribeDifference(chat, pairs[0].0, pairs[0].1);
      var rest := DescribeAll(chat, pairs[1..]);
      if first.Failure? then Failure(first.error)
      else if rest.Failure? then
        FirstFailureShifts(chat, pairs, rest.error);
        Failure(rest.error)
      else
        assert forall i :: 1 <= i < |pairs| ==> pairs[i] == pairs[1..][i - 1];
        Success([first.value] + rest.value)
  }

  /** A failure found in the tail of the pairs, after a head that succeeded,
      is the first failure of all the pairs. */
  lemma FirstFailureShifts(chat: Chat, pairs: seq<(PyValue, PyValue)>, e: Error)
    requires |pairs| > 0 && DescribeDifference(chat, pairs[0].0, pairs[0].1).Success?
    requires exists i :: 0 <= i < |pairs| - 1 && DescribeDifference(chat, pairs[1..][i].0, pairs[1..][i].1) == Failure(e)
                      && forall j :: 0 <= j < i ==> DescribeDifference(chat, pairs[1..][j].0, pairs[1..][j].1).Success?
    ensures exists i :: 0 <= i < |pairs| && DescribeDifference(chat, pairs[i].0, pairs[i].1) == Failure(e)
                     && forall j :: 0 <= j < i ==> DescribeDifference(chat, pairs[j].0, pairs[j].1).Success?
  {
    var i :| 0 <= i < |pairs| - 1 && DescribeDifference(chat, pairs[1..][i].0, pairs[1..][i].1) == Failure(e)
             && forall j :: 0 <= j < i ==> DescribeDifference(chat, pairs[1..][j].0, pairs[1..][j].1).Success?;
    assert pairs[i + 1] == pairs[1..][i];
    forall j | 0 <= j < i + 1 ensures DescribeDifference(chat, pairs[j].0, pairs[j].1).Success? {
      if j > 0 {
        assert pairs[j] == pairs[1..][j - 1];
      }
    }
  }

  /** `process_batch`: unequal lengths raise ValueError before any request
      is made (the result does not depend on the chat endpoint at all);
      otherwise one reply per pair, in order, or the first exception. */
  function ProcessBatch(chat: Chat, sources: seq<PyValue>, targets: seq<PyValue>): (r: Result<seq<string>>)
    ensures |sources| != |targets| ==> r == Failure(ValueError(LengthMismatch))
    ensures r.Success? ==> |sources| == |targets| == |r.value|
    ensures r.Success? ==> forall i :: 0 <= i < |sources| ==> DescribeDifference(chat, sources[i], targets[i]) == Success(r.value[i])
    ensures |sources| == |targets| ==>
      (r.Success? <==> forall i :: 0 <= i < |sources| ==> DescribeDifference(chat, sources[i], targets[i]).Success?)
    ensures |sources| == |targets| && r.Failure? ==>
      exists i :: 0 <= i < |sources| && DescribeDifference(chat, sources[i], targets[i]) == Failure(r.error)
               && forall j :: 0 <= j < i ==> DescribeDifference(chat, sources[j], targets[j]).Success?
  {
    if |sources| != |targets| then Failure(ValueError(LengthMismatch))
    else DescribeAll(chat, Zip(sources, targets))
  }

  /** The length check comes before any request: two different chat
      endpoints give the same answer for mismatched batches. */
  lemma GuardPrecedesRequests(chat1: Chat, chat2: Chat, sources: seq<PyValue>, targets: seq<PyValue>)
    requires |sources| != |targets|
    ensures ProcessBatch(chat1, sources, targets) == ProcessBatch(chat2, sources, targets)
    ensures ProcessBatch(chat1, sources, targets).Failure?
  {
  }
}

=== FILE: driver.dfy ===
/** The loop every stage's `main` runs: discover the shards of the input
    directory, then process them one after the other, each into its own
    output file, until one raises. */
module Driver {
  import opened Common
  import opened Records
  import opened Shards

  /** What one stage's `main` leaves behind: the output file of each shard
      it started, named and filled in processing order, and the exception
      that ended the run, if any. */
  datatype Outcome<W> = Outcome(files: seq<(string, seq<W>)>, failure: Option<Error>)

  /** How many shards, from the first, complete without raising. */
  function Completed<W>(shards: seq<string>, shard: string -> Output<W>): (n: nat)
    ensures n <= |shards|
    ensures forall i :: 0 <= i < n ==> shard(shards[i]).failure.None?
    ensures n < |shards| ==> shard(shards[n]).failure.Some?
    ensures n == |shards| <==> forall i :: 0 <= i < |shards| ==> shard(shards[i]).failure.None?
    decreases |shards|
  {
    if |shards| == 0 || shard(shards[0]).failure.Some? then 0
    else
      var n := Completed(shards[1..], shard);
      assert forall i :: 1 <= i < |shards| ==> shards[1..][i - 1] == shards[i];
      1 + n
  }

  /** The shard loop: shards in the given order, each written to the file
      `name` gives it. The first shard that raises ends the run; its file is
      listed, with the records written before the exception, exactly when
      the shard had opened it. */
  function RunShards<W>(name: string -> string, shards: seq<string>, shard: string -> Output<W>): (r: Outcome<W>)
    ensures var n := Completed(shards, shard);
      && (r.failure.None? <==> n == |shards|)
      && (r.failure.Some? ==> r.failure == shard(shards[n]).failure)
      && |r.files| == (if n < |shards| && shard(shards[n]).fileOpened then n + 1 else n)
    ensures forall i :: 0 <= i < |r.files| ==> r.files[i] == (name(shards[i]), shard(shards[i]).written)
    decreases |shards|
  {
    if |shards| == 0 then Outcome([], None)
    else
      var p := shards[0];
      var file := (name(p), shard(p).written);
      match shard(p).failure
      case Some(e) => Outcome(if shard(p).fileOpened then [file] else [], Some(e))
      case None =>
        var rest := RunShards(name, shards[1..], shard);
        assert forall i :: 1 <= i < |shards| ==> shards[1..][i - 1] == shards[i];
        Outcome([file] + rest.files, rest.failure)
  }

  /** A stage's `main`: discover the shards, then run the shard loop, each
      shard written to `<outDir>/<tag>.jsonal`. */
  function RunStage<W>(outDir: string, paths: seq<string>, shard: string -> Output<W>): (r: Outcome<W>)
    ensures |r.files| <= |Discover(paths)|
    ensures forall i :: 0 <= i < |r.files| ==>
      r.files[i] == (OutputName(outDir, Discover(paths)[i]), shard(Discover(paths)[i]).written)
    ensures r.failure.None? <==> forall p :: p in paths && !IsHidden(p) ==> shard(p).failure.None?
    ensures r.failure.None? ==> |r.files| == |Discover(paths)|
  {
    var shards := Discover(paths);
    DiscoveredSucceed(paths, shard);
    RunShards(p => OutputName(outDir, p), shards, shard)
  }

  /** Every discovered shard completes exactly when every visible input
      path's shard does. */
  lemma DiscoveredSucceed<W>(paths: seq<string>, shard: string -> Output<W>)
    ensures (forall i :: 0 <= i < |Discover(paths)| ==> shard(Discover(paths)[i]).failure.None?)
        <==> (forall p :: p in paths && !IsHidden(p) ==> shard(p).failure.None?)
  {
    SameMembersSucceed(Discover(paths), paths, shard);
  }

  /** The index-wise and membership-wise readings of "every shard
      completes" agree for any list holding exactly the visible paths. */
  lemma SameMembersSucceed<W>(shards: seq<string>, paths: seq<string>, shard: string -> Output<W>)
    requires forall p :: p in shards <==> p in paths && !IsHidden(p)
    ensures (forall i :: 0 <= i < |shards| ==> shard(shards[i]).failure.None?)
        <==> (forall p :: p in paths && !IsHidden(p) ==> shard(p).failure.None?)
  {
    if forall i :: 0 <= i < |shards| ==> shard(shards[i]).failure.None? {
      forall p | p in paths && !IsHidden(p) ensures shard(p).failure.None? {
        assert p in shards;
        var i :| 0 <= i < |shards| && shards[i] == p;
      }
    }
    if forall p :: p in paths && !IsHidden(p) ==> shard(p).failure.None? {
      forall i | 0 <= i < |shards| ensures shard(shards[i]).failure.None? {
        assert shards[i] in shards;
      }
    }
  }

  /** When every shard completes, each discovered shard has its file, in
      discovery order. */
  lemma AllShardsComplete<W>(outDir: string, paths: seq<string>, shard: string -> Output<W>)
    requires forall p :: shard(p).failure.None?
    ensures var r := RunStage(outDir, paths, shard);
      && |r.files| == |Discover(paths)|
      && forall i :: 0 <= i < |r.files| ==> r.files[i].0 == OutputName(outDir, Discover(paths)[i])
  {
  }

  /** The three example shards are written, when every shard completes, to
      `00000.jsonal`, `00002.jsonal` and `00010.jsonal`, in that order. */
  lemma RunStageExample<W>(dir: string, outDir: string, shard: string -> Output<W>)
    requires |dir| > 0 && dir[|dir| - 1] == '/'
    requires forall p :: shard(p).failure.None?
    ensures var r := RunStage(outDir, [ShardPath(dir, "00002"), dir + "._train-00001-x.parquet",
                                       ShardPath(dir, "00000"), ShardPath(dir, "00010")], shard);
      && |r.files| == 3
      && r.files[0].0 == outDir + "/" + "00000" + ".jsonal"
      && r.files[1].0 == outDir + "/" + "00002" + ".jsonal"
      && r.files[2].0 == outDir + "/" + "00010" + ".jsonal"
  {
    var paths := [ShardPath(dir, "00002"), dir + "._train-00001-x.parquet",
                  ShardPath(dir, "00000"), ShardPath(dir, "00010")];
    DiscoverExample(dir);
    ExampleOutputNames(dir, outDir);
    AllShardsComplete(outDir, paths, shard);
  }
}

=== FILE: images.dfy ===
/** How the generators turn an image value into something a chat request
    can carry: `_encode_image_bytes` (the same method in all three generator
    classes), the `data:image/jpeg;base64,` URL (RFC 2397) and the message
    structure of a chat request. */
module Images {
  import opened Common
  import opened Json
  import opened Base64

  /** The Python values that reach `_encode_image_bytes`: the `bytes` of a
      parquet image cell, a `bytearray`, a dict, or a value decoded from a
      record file (a str, None, a number, a list, or a dict made of JSON
      values). */
  datatype PyValue =
    | PyBytes(data: seq<byte>)
    | PyByteArray(data: seq<byte>)
    | PyDict(entries: seq<(string, PyValue)>)
    | PyJson(value: Json)

  /** `d[k]` on a dict's entries: the first entry with that key. */
  function Entry(entries: seq<(string, PyValue)>, k: string): (r: Option<PyValue>)
    ensures r.Some? ==> (k, r.value) in entries
    ensures r.None? ==> forall i :: 0 <= i < |entries| ==> entries[i].0 != k
    ensures r.Some? ==> exists i :: 0 <= i < |entries| && entries[i] == (k, r.value)
                                 && forall j :: 0 <= j < i ==> entries[j].0 != k
    decreases |entries|
  {
    if |entries| == 0 then None
    else if entries[0].0 == k then Some(entries[0].1)
    else Entry(entries[1..], k)
  }

  /** The bytes an image value stands for, if any: raw bytes or a bytearray
      themselves, or a dict whose `"bytes"` entry is raw bytes or a
      bytearray. A JSON value never holds bytes. */
  function ImageBytes(v: PyValue): Option<seq<byte>> {
    match v
    case PyBytes(d) => Some(d)
    case PyByteArray(d) => Some(d)
    case PyDict(es) =>
      (match Entry(es, "bytes")
       case Some(PyBytes(d)) => Some(d)
       case Some(PyByteArray(d)) => Some(d)
       case _ => None)
    case PyJson(_) => None
  }

  const Unsupported := "Unsupported image data format in Parquet"
  const NotBytesLike := "a bytes-like object is required"

  /** `base64.b64encode(x).decode("utf-8")`, which accepts only bytes-like
      values. */
  function B64Encode(x: PyValue): (r: Result<string>)
    ensures r.Success? <==> x.PyBytes? || x.PyByteArray?
    ensures r.Success? ==> Decode(r.value) == Some(x.data)
    ensures r.Failure? ==> r.error == TypeError(NotBytesLike)
  {
    match x
    case PyBytes(d) => DecodeEncode(d); Success(Encode(d))
    case PyByteArray(d) => DecodeEncode(d); Success(Encode(d))
    case _ => Failure(TypeError(NotBytesLike))
  }

  /** `_encode_image_bytes`: a dict holding `"bytes"` has that value encoded;
      raw bytes or a bytearray are encoded directly; anything else raises
      TypeError. */
  function EncodeImageBytes(v: PyValue): (r: Result<string>)
    ensures r.Success? <==> ImageBytes(v).Some?
    ensures r.Success? ==> Decode(r.value) == ImageBytes(v)
    ensures r.Failure? ==> r.error.TypeError?
  {
    match v
    case PyDict(es) =>
      (match Entry(es, "bytes")
       case Some(x) => B64Encode(x)
       case None => Failure(TypeError(Unsupported)))
    case PyJson(JObject(fs)) =>
      if "bytes" in Keys(fs) then Failure(TypeError(NotBytesLike)) else Failure(TypeError(Unsupported))
    case PyJson(_) => Failure(TypeError(Unsupported))
    case _ => B64Encode(v)
  }

  /** Whatever shape the image value has, the text is the standard base64 of
      its bytes: a dict cell and the raw bytes it holds encode alike. */
  lemma EncodeImageBytesIsBase64(v: PyValue)
    requires ImageBytes(v).Some?
    ensures EncodeImageBytes(v) == Success(Encode(ImageBytes(v).value))
  {
    var s := EncodeImageBytes(v).value;
    EncodeDecode(s);
  }

  /** No value read back from a record file is an image. */
  lemma JsonIsNoImage(j: Json)
    ensures EncodeImageBytes(PyJson(j)).Failure?
    ensures EncodeImageBytes(PyJson(j)).error.TypeError?
  {
  }

  /** The media-type header the generators put in front of the base64 text. */
  const JpegPrefix := "data:image/jpeg;base64,"

  function DataUrl(b64: string): string {
    JpegPrefix + b64
  }

  /** Reading an image back from a data URL: the header, then base64. */
  function UrlImage(url: string): (r: Option<seq<byte>>)
    ensures r.Some? ==> |url| >= |JpegPrefix| && url[..|JpegPrefix|] == JpegPrefix
  {
    if |url| >= |JpegPrefix| && url[..|JpegPrefix|] == JpegPrefix then Decode(url[|JpegPrefix|..])
    else None
  }

  /** The URL built from an encoded image carries exactly that image. */
  lemma DataUrlRoundTrip(b64: string)
    ensures UrlImage(DataUrl(b64)) == Decode(b64)
  {
    var u := DataUrl(b64);
    assert u[..|JpegPrefix|] == JpegPrefix && u[|JpegPrefix|..] == b64;
  }

  /** One element of a user message's `content` list. */
  datatype Part = TextPart(text: string) | ImagePart(url: string)

  /** A chat message: the system instruction or the user's content list. */
  datatype Message = SystemMessage(content: string) | UserMessage(parts: seq<Part>)

  /** The chat completion endpoint, as seen by the generators: a request's
      messages in, the reply's text out, or the transport's exception. The
      model name is fixed per process and left implicit. */
  type Chat = seq<Message> -> Result<string>

  /** The images a list of parts carries, in order, as the receiver decodes
      them. */
  function PartImages(parts: seq<Part>): (r: seq<Option<seq<byte>>>)
    ensures |r| <= |parts|
    decreases |parts|
  {
    if |parts| == 0 then []
    else (if parts[0].ImagePart? then [UrlImage(parts[0].url)] else []) + PartImages(parts[1..])
  }

  /** The text parts, in order. */
  function PartTexts(parts: seq<Part>): (r: seq<string>)
    ensures |r| <= |parts|
    decreases |parts|
  {
    if |parts| == 0 then []
    else (if parts[0].TextPart? then [parts[0].text] else []) + PartTexts(parts[1..])
  }

  /** A text part followed by one image: the receiver sees that text and
      the image the URL encodes. */
  lemma TextAndImage(t: string, u: string)
    ensures PartTexts([TextPart(t), ImagePart(u)]) == [t]
    ensures PartImages([TextPart(t), ImagePart(u)]) == [UrlImage(u)]
  {
    var parts := [TextPart(t), ImagePart(u)];
    assert parts[1..] == [ImagePart(u)] && parts[1..][1..] == [];
  }

  /** A text part followed by two images: the receiver sees that text and
      both images, in the order of their parts. */
  lemma TextAndTwoImages(t: string, u1: string, u2: string)
    ensures PartTexts([TextPart(t), ImagePart(u1), ImagePart(u2)]) == [t]
    ensures PartImages([TextPart(t), ImagePart(u1), ImagePart(u2)]) == [UrlImage(u1), UrlImage(u2)]
  {
    var parts := [TextPart(t), ImagePart(u1), ImagePart(u2)];
    assert parts[1..] == [ImagePart(u1), ImagePart(u2)];
    assert parts[1..][1..] == [ImagePart(u2)] && parts[1..][1..][1..] == [];
    assert PartTexts([ImagePart(u2)]) == [] && PartImages([ImagePart(u2)]) == [UrlImage(u2)];
    assert PartTexts(parts[1..]) == [] && PartImages(parts[1..]) == [UrlImage(u1), UrlImage(u2)];
  }
}

=== FILE: instruction_generator.dfy ===
/** Stage 2's generator (`EditInstructionGenerator`): one chat request per
    record, carrying the difference description inside a tag pair and the
    source image, asking for numbered editing actions. */
module InstructionGenerator {
  import opened Common
  import opened Text
  import opened Json
  import opened Images
  import opened Records

  const SystemPrompt: string :=
    "You are a helpful visual assistant and image editor. "
    + "When provided with a source image context and an ideal difference description, "
    + "you will organize and output the specific editing actions needed to achieve the target image. "
    + "Each action should be concise, use an editing verb, "
    + "and omit any preamble or extra explanation. "
    + "Output must be valid JSON."
    + "The Output should follow the structure that"
    + "each key is a stringified number ('1','2','3',...) and each value is a string describing specific editing action. "
    + "You should answer the question without preamble or additional explanation."

  const OpenTag := "<difference_description>"
  const CloseTag := "</difference_description>"
  const Instruction := "Please list the editing actions one by one in JSON format, numbered sequentially. "

  /** The text part of the user message: the description framed by the tag
      pair, then the fixed request. */
  function UserText(difference: string): string {
    OpenTag + difference + CloseTag + Instruction
  }

  /** The description travels intact: it can be read back from between the
      tags. */
  lemma UnframeUserText(difference: string)
    ensures Unframe(UserText(difference), OpenTag, CloseTag + Instruction) == Some(difference)
  {
    assert UserText(difference) == OpenTag + difference + (CloseTag + Instruction);
    UnframeFramed(OpenTag, difference, CloseTag + Instruction);
  }

  /** Different descriptions give different requests. */
  lemma UserTextInjective(a: string, b: string)
    ensures UserText(a) == UserText(b) <==> a == b
  {
    if UserText(a) == UserText(b) {
      UnframeUserText(a);
      UnframeUserText(b);
    }
  }

  /** The request for one record, or the TypeError the image raises while it
      is encoded. */
  function Request(source: PyValue, difference: string): (r: Result<seq<Message>>)
    ensures r.Success? <==> ImageBytes(source).Some?
    ensures r.Failure? ==> r.error.TypeError?
  {
    var s :- EncodeImageBytes(source);
    Success([SystemMessage(SystemPrompt),
             UserMessage([TextPart(UserText(difference)), ImagePart(DataUrl(s))])])
  }

  /** The request carries the framed description and the source image. */
  lemma RequestCarriesDescriptionAndImage(source: PyValue, difference: string)
    requires Request(source, difference).Success?
    ensures var m := Request(source, difference).value;
      && |m| == 2 && m[0] == SystemMessage(SystemPrompt) && m[1].UserMessage?
      && PartTexts(m[1].parts) == [UserText(difference)]
      && PartImages(m[1].parts) == [ImageBytes(source)]
  {
    var s := EncodeImageBytes(source).value;
    TextAndImage(UserText(difference), DataUrl(s));
    DataUrlRoundTrip(s);
  }

  /** `generate_instructions`: the reply text, or the exception raised while
      encoding the image or calling the endpoint. */
  function GenerateInstructions(chat: Chat, source: PyValue, difference: string): (r: Result<string>)
    ensures Request(source, difference).Failure? ==> r == Failure(Request(source, difference).error)
    ensures Request(source, difference).Success? ==> r == chat(Request(source, difference).value)
  {
    var m :- Request(source, difference);
    chat(m)
  }

  /** One record of `process_batch` as written: the description text comes
      from `rec["difference"]`, and `rec["source"]` — a value read from the
      record file — is handed over as the image. */
  function ProcessRecord(c: Codec, chat: Chat, rec: Json): (r: Result<string>)
    ensures r.Failure?
    ensures Get(rec, "difference").Failure? ==> r == Failure(Get(rec, "difference").error)
    ensures Get(rec, "difference").Success? && Get(rec, "source").Failure? ==> r == Failure(Get(rec, "source").error)
    ensures Get(rec, "difference").Success? && Get(rec, "source").Success? ==> r.error.TypeError?
  {
    var difference :- Get(rec, "difference");
    var source :- Get(rec, "source");
    JsonIsNoImage(source);
    GenerateInstructions(chat, PyJson(source), TextOf(c, difference))
  }

  /** `process_batch` as written: the records in order, stopping at the
      first exception. */
  function ProcessBatch(c: Codec, chat: Chat, recs: seq<Json>): (r: Result<seq<string>>)
    ensures r.Success? ==> |r.value| == |recs|
    ensures r.Success? ==> forall i :: 0 <= i < |recs| ==> ProcessRecord(c, chat, recs[i]) == Success(r.value[i])
    ensures r.Success? <==> forall i :: 0 <= i < |recs| ==> ProcessRecord(c, chat, recs[i]).Success?
  {
    Collect(recs, rec => ProcessRecord(c, chat, rec))
  }

  /** As written, `process_batch` succeeds only on an empty batch: the first
      record always raises, whatever the endpoint would answer. */
  lemma ProcessBatchFailsUnlessEmpty(c: Codec, chat: Chat, recs: seq<Json>)
    ensures ProcessBatch(c, chat, recs).Success? <==> |recs| == 0
    ensures |recs| > 0 ==> ProcessBatch(c, chat, recs) == Failure(ProcessRecord(c, chat, recs[0]).error)
  {
  }

  /** A stage-1 record as it is written: the source image's name, the
      target image's name and a description. */
  const ExampleRecord: Json :=
    JObject([("source", JString("src_0.jpg")), ("target", JString("tgt_0.jpg")), ("difference", JString("1: There is a difference at color, ..."))])

  /** One well-formed record is enough: the batch raises the "unsupported
      image" TypeError for the name string before any request is made. */
  lemma ProcessBatchExample(c: Codec, chat: Chat)
    ensures ProcessBatch(c, chat, [ExampleRecord]) == Failure(TypeError(Unsupported))
  {
    var fs := ExampleRecord.fields;
    ThreeFields(fs[0].0, fs[0].1, fs[1].0, fs[1].1, fs[2].0, fs[2].1);
    assert Get(ExampleRecord, "source") == Success(JString("src_0.jpg"));
    assert Get(ExampleRecord, "difference").Success?;
    assert ProcessRecord(c, chat, ExampleRecord) == Failure(TypeError(Unsupported));
  }

  /** The batch as the stage-2 driver runs it: each record's description
      paired by position with an image row (the shorter list decides). */
  function ProcessPaired(c: Codec, chat: Chat, recs: seq<Json>, images: seq<PyValue>): (r: Result<seq<string>>)
    ensures r.Success? ==> |r.value| == |recs| || |r.value| == |images|
    ensures r.Success? ==> |r.value| <= |recs| && |r.value| <= |images|
    ensures r.Success? ==> forall i :: 0 <= i < |r.value| ==>
      Get(recs[i], "difference").Success?
      && GenerateInstructions(chat, images[i], TextOf(c, Get(recs[i], "difference").value)) == Success(r.value[i])
    decreases |recs|
  {
    if |recs| == 0 || |images| == 0 then Success([])
    else
      var difference :- Get(recs[0], "difference");
      var first :- GenerateInstructions(chat, images[0], TextOf(c, difference));
      var rest :- ProcessPaired(c, chat, recs[1..], images[1..]);
      Success([first] + rest)
  }

  /** Paired with real image rows, a batch succeeds exactly when every
      record has a description, every image encodes and the endpoint
      answers every request; the endpoint is then asked once per pair with
      the record's description and that row's image. */
  lemma {:induction false} ProcessPairedSucceeds(c: Codec, chat: Chat, recs: seq<Json>, images: seq<PyValue>)
    requires |recs| == |images|
    ensures ProcessPaired(c, chat, recs, images).Success? <==>
      forall i :: 0 <= i < |recs| ==>
        Get(recs[i], "difference").Success?
        && GenerateInstructions(chat, images[i], TextOf(c, Get(recs[i], "difference").value)).Success?
    decreases |recs|
  {
    if |recs| > 0 {
      ProcessPairedSucceeds(c, chat, recs[1..], images[1..]);
      assert forall i :: 1 <= i < |recs| ==> recs[1..][i - 1] == recs[i] && images[1..][i - 1] == images[i];
    }
  }
}

=== FILE: json.dfy ===
/** JSON values as the pipeline sees them through Python's `json` module,
    the dict operations the drivers perform on records, and the abstract
    `json.loads` / `json.dumps` pair. */
module Json {
  import opened Common
  import opened Text

  /** A decoded JSON value. Objects keep their keys in order, as a Python
      dict remembers insertion order. A float is held as the number text
      `json.dumps` writes for it (Python's `repr` of the double, or `NaN`,
      `Infinity`, `-Infinity`): a double is one of finitely many values, so
      a text names it exactly, and no arithmetic on floats is modelled. */
  datatype Json =
    | JNull
    | JBool(b: bool)
    | JInt(i: int)
    | JFloat(text: string)
    | JString(s: string)
    | JArray(items: seq<Json>)
    | JObject(fields: seq<(string, Json)>)

  type Fields = seq<(string, Json)>

  function Keys(fs: Fields): seq<string> {
    seq(|fs|, i requires 0 <= i < |fs| => fs[i].0)
  }

  predicate DistinctKeys(fs: Fields) {
    forall i, j :: 0 <= i < j < |fs| ==> fs[i].0 != fs[j].0
  }

  /** A value a Python dict/list/str/... tree can be: no object repeats a key. */
  predicate WellFormed(v: Json) {
    match v
    case JArray(items) => forall i :: 0 <= i < |items| ==> WellFormed(items[i])
    case JObject(fs) => DistinctKeys(fs) && forall i :: 0 <= i < |fs| ==> WellFormed(fs[i].1)
    case _ => true
  }

  /** The position of `k` in a key list: the first one, as a dict holds it. */
  function FirstIndex(ks: seq<string>, k: string): (r: Option<nat>)
    ensures r.Some? ==> r.value < |ks| && ks[r.value] == k
    ensures forall j :: 0 <= j < |ks| && (r.None? || j < r.value) ==> ks[j] != k
  {
    if |ks| == 0 then None
    else if ks[0] == k then Some(0)
    else match FirstIndex(ks[1..], k)
      case None => None
      case Some(i) => Some(i + 1)
  }

  /** `d.get(k)`: the value stored under `k`, if any. */
  function Lookup(fs: Fields, k: string): (r: Option<Json>)
    ensures r.None? <==> k !in Keys(fs)
    ensures r.Some? ==> (k, r.value) in fs
  {
    match FirstIndex(Keys(fs), k)
    case None => None
    case Some(i) => Some(fs[i].1)
  }

  /** In an object without repeated keys, every field is found under its
      own key. */
  lemma LookupField(fs: Fields, i: int)
    requires DistinctKeys(fs) && 0 <= i < |fs|
    ensures Lookup(fs, fs[i].0) == Some(fs[i].1)
  {
    assert Keys(fs)[i] == fs[i].0;
    var r := FirstIndex(Keys(fs), fs[i].0);
    assert r.Some? && r.value == i;
  }

  /** A dict display with three different keys. */
  lemma ThreeFields(k0: string, v0: Json, k1: string, v1: Json, k2: string, v2: Json)
    requires k0 != k1 && k0 != k2 && k1 != k2
    ensures var fs := [(k0, v0), (k1, v1), (k2, v2)];
      && Keys(fs) == [k0, k1, k2] && DistinctKeys(fs)
      && Lookup(fs, k0) == Some(v0) && Lookup(fs, k1) == Some(v1) && Lookup(fs, k2) == Some(v2)
      && (WellFormed(v0) && WellFormed(v1) && WellFormed(v2) ==> WellFormed(JObject(fs)))
  {
    var fs := [(k0, v0), (k1, v1), (k2, v2)];
    assert Keys(fs) == [k0, k1, k2] by {
      assert Keys(fs)[0] == k0 && Keys(fs)[1] == k1 && Keys(fs)[2] == k2;
    }
    assert DistinctKeys(fs);
    LookupField(fs, 0);
    LookupField(fs, 1);
    LookupField(fs, 2);
    ThreeValuesWellFormed(fs);
  }

  lemma ThreeValuesWellFormed(fs: Fields)
    requires |fs| == 3 && DistinctKeys(fs)
    ensures WellFormed(fs[0].1) && WellFormed(fs[1].1) && WellFormed(fs[2].1) ==> WellFormed(JObject(fs))
  {
    if WellFormed(fs[0].1) && WellFormed(fs[1].1) && WellFormed(fs[2].1) {
      assert forall i :: 0 <= i < |fs| ==> WellFormed(fs[i].1) by {
        forall i | 0 <= i < |fs| ensures WellFormed(fs[i].1) {
          assert i == 0 || i == 1 || i == 2;
        }
      }
    }
  }

  /** `d[k] = v` on a dict: an existing key keeps its position and gets the
      new value; a new key is appended at the end. */
  function Put(fs: Fields, k: string, v: Json): (r: Fields)
    ensures Keys(r) == if k in Keys(fs) then Keys(fs) else Keys(fs) + [k]
    ensures Lookup(r, k) == Some(v)
    ensures forall k' :: k' != k ==> Lookup(r, k') == Lookup(fs, k')
    ensures DistinctKeys(fs) ==> DistinctKeys(r)
    ensures (forall i :: 0 <= i < |fs| ==> WellFormed(fs[i].1)) && WellFormed(v) ==>
              forall i :: 0 <= i < |r| ==> WellFormed(r[i].1)
    ensures forall i :: 0 <= i < |r| ==> r[i] == (k, v) || r[i] in fs
  {
    match FirstIndex(Keys(fs), k)
    case Some(i) =>
      var r := fs[i := (k, v)];
      assert Keys(r) == Keys(fs);
      r
    case None =>
      var r := fs + [(k, v)];
      assert Keys(r) == Keys(fs) + [k];
      forall j | 0 <= j < |fs| ensures r[j].0 != k {
        assert Keys(fs)[j] == fs[j].0;
      }
      forall k' | k' != k ensures FirstIndex(Keys(r), k') == FirstIndex(Keys(fs), k') {
        var a, b := FirstIndex(Keys(r), k'), FirstIndex(Keys(fs), k');
        if b.Some? {
          assert Keys(r)[b.value] == k';
        }
      }
      r
  }

  /** The Python type of a decoded value, as error messages name it. */
  function TypeName(v: Json): string {
    match v
    case JNull => "NoneType"
    case JBool(_) => "bool"
    case JInt(_) => "int"
    case JFloat(_) => "float"
    case JString(_) => "str"
    case JArray(_) => "list"
    case JObject(_) => "dict"
  }

  /** `rec[k]` on a decoded JSON value: an object yields the value under
      `k` or raises KeyError; any other value raises TypeError. */
  function Get(rec: Json, k: string): (r: Result<Json>)
    ensures r.Success? <==> rec.JObject? && k in Keys(rec.fields)
    ensures r.Success? ==> Lookup(rec.fields, k) == Some(r.value)
    ensures rec.JObject? && k !in Keys(rec.fields) ==> r == Failure(KeyError(k))
    ensures !rec.JObject? ==> r.Failure? && r.error.TypeError?
  {
    match rec
    case JObject(fs) =>
      (match Lookup(fs, k)
       case Some(v) => Success(v)
       case None => Failure(KeyError(k)))
    case _ => Failure(TypeError("value is not subscriptable by a string key"))
  }

  /** `after` is the object `before` with field `k` set to `v`: the key
      order of a dict assignment, and nothing else changed. */
  ghost predicate SetsOnly(before: Json, after: Json, k: string, v: Json) {
    && before.JObject? && after.JObject?
    && Keys(after.fields) == (if k in Keys(before.fields) then Keys(before.fields) else Keys(before.fields) + [k])
    && Lookup(after.fields, k) == Some(v)
    && forall k' :: k' != k ==> Lookup(after.fields, k') == Lookup(before.fields, k')
  }

  /** `rec[k] = v` on a record already known to be an object. */
  function Assign(rec: Json, k: string, v: Json): (r: Json)
    requires rec.JObject?
    ensures SetsOnly(rec, r, k, v)
    ensures WellFormed(rec) && WellFormed(v) ==> WellFormed(r)
  {
    JObject(Put(rec.fields, k, v))
  }

  /** `json.loads` (partial: None is a JSONDecodeError) and `json.dumps`
      (with `ensure_ascii=False` and the default separators), left abstract. */
  datatype Codec = Codec(loads: string -> Option<Json>, dumps: Json -> string)

  /** What a `json.dumps` text looks like: non-empty, nothing `strip()` or
      `strip("`")` would remove at either end, and no newline (the default
      separators and string escaping never emit one). */
  predicate CompactText(t: string) {
    && |t| > 0
    && !IsSpace(t[0]) && !IsSpace(t[|t| - 1])
    && t[0] != '`' && t[|t| - 1] != '`'
    && '\n' !in t
  }

  /** Every float in `v` is held as a text that `loads` reads back as that
      very float. Python's `repr` text has this property; another spelling
      of the same number (`1.00` for `1.0`) does not, since `loads` never
      produces it. */
  predicate FloatsRead(c: Codec, v: Json) {
    match v
    case JFloat(t) => c.loads(t) == Some(JFloat(t))
    case JArray(items) => forall i :: 0 <= i < |items| ==> FloatsRead(c, items[i])
    case JObject(fs) => forall i :: 0 <= i < |fs| ==> FloatsRead(c, fs[i].1)
    case _ => true
  }

  /** A value `loads` can produce: no object repeats a key, and every float
      is held in the form `loads` gives it. */
  predicate Readable(c: Codec, v: Json) {
    WellFormed(v) && FloatsRead(c, v)
  }

  /** Half of the codec assumption: `dumps` of a readable value is compact
      and `loads` reads it back. */
  ghost predicate DumpsReadsBack(c: Codec) {
    forall v {:trigger c.dumps(v)} :: Readable(c, v) ==> CompactText(c.dumps(v)) && c.loads(c.dumps(v)) == Some(v)
  }

  /** The other half: `loads` only yields readable values (Python dicts
      cannot repeat a key, and a float is read as its `repr`). */
  ghost predicate LoadsReadable(c: Codec) {
    forall t {:trigger c.loads(t)} :: c.loads(t).Some? ==> Readable(c, c.loads(t).value)
  }

  /** The ASSUMPTION the model makes about the JSON library, stated once and
      used only as a precondition. */
  ghost predicate CodecAssumption(c: Codec) {
    DumpsReadsBack(c) && LoadsReadable(c)
  }

  /** A float held in a spelling `loads` never yields (`1.00` where Python
      reads `1.0`) is not readable, so the codec assumption says nothing
      about it. */
  lemma UnreadFloatNotReadable(c: Codec, t: string)
    requires c.loads(t) != Some(JFloat(t))
    ensures !Readable(c, JFloat(t)) && !Readable(c, JArray([JFloat(t)]))
  {
    assert JArray([JFloat(t)]).items[0] == JFloat(t);
  }

  /** `rec[k] = v` keeps a record readable when `v` is readable. */
  lemma AssignReadable(c: Codec, rec: Json, k: string, v: Json)
    requires rec.JObject?
    ensures Readable(c, rec) && Readable(c, v) ==> Readable(c, Assign(rec, k, v))
  {
    if Readable(c, rec) && Readable(c, v) {
      var r := Assign(rec, k, v).fields;
      forall i | 0 <= i < |r| ensures FloatsRead(c, r[i].1) {
        if r[i] != (k, v) {
          var j :| 0 <= j < |rec.fields| && rec.fields[j] == r[i];
        }
      }
    }
  }

  /** A dict display with three readable values is readable. */
  lemma ThreeValuesReadable(c: Codec, fs: Fields)
    requires |fs| == 3 && DistinctKeys(fs)
    ensures Readable(c, fs[0].1) && Readable(c, fs[1].1) && Readable(c, fs[2].1) ==> Readable(c, JObject(fs))
  {
    if Readable(c, fs[0].1) && Readable(c, fs[1].1) && Readable(c, fs[2].1) {
      ThreeValuesWellFormed(fs);
      forall i | 0 <= i < |fs| ensures FloatsRead(c, fs[i].1) {
        assert i == 0 || i == 1 || i == 2;
      }
    }
  }

  /** The text a stage embeds in a prompt for a stored field: a string is
      used verbatim, any other value is serialised with `json.dumps`. */
  function TextOf(c: Codec, v: Json): (r: string)
    ensures v.JString? ==> r == v.s
    ensures DumpsReadsBack(c) && Readable(c, v) && !v.JString? ==> c.loads(r) == Some(v)
  {
    if v.JString? then v.s else c.dumps(v)
  }

  /** Under the codec assumption the embedded text loses nothing: a string
      comes back verbatim, and any other value parses back to itself. */
  lemma TextOfRecovers(c: Codec, v: Json)
    requires CodecAssumption(c) && Readable(c, v)
    ensures v.JString? ==> TextOf(c, v) == v.s
    ensures !v.JString? ==> c.loads(TextOf(c, v)) == Some(v)
  {
  }

  /** Two readable values embed the same text exactly when they are equal,
      or when one is a raw string holding the other's JSON text: the prompt
      cannot tell such a string from the structured value it spells. */
  lemma TextOfConflates(c: Codec, a: Json, b: Json)
    requires CodecAssumption(c) && Readable(c, a) && Readable(c, b)
    ensures TextOf(c, a) == TextOf(c, b) <==>
      || a == b
      || (a.JString? && !b.JString? && a.s == c.dumps(b))
      || (b.JString? && !a.JString? && b.s == c.dumps(a))
  {
    if !a.JString? && !b.JString? && c.dumps(a) == c.dumps(b) {
      assert c.loads(c.dumps(a)) == Some(a);
      assert c.loads(c.dumps(b)) == Some(b);
    }
  }
}

=== FILE: normalize.dfy ===
/** Response normalisation, shared by stages 1, 2 and 4: the model's reply
    is cleaned of a Markdown code fence and parsed as JSON; when parsing
    fails the reply is kept as it came. */
module Normalize {
  import opened Common
  import opened Text
  import opened Json

  const Fence: string := "```"

  /** `clean_json_block`: strip whitespace; if the text then starts with a
      fence, strip every backtick from both ends and drop a `json` tag. The
      result is never longer than the reply; unfenced text is only
      whitespace-stripped, and fenced text without a tag only loses its
      outer backticks as well. */
  function CleanJsonBlock(s: string): (r: string)
    ensures |r| <= |s|
    ensures !StartsWith(Strip(s), Fence) ==> r == Strip(s)
    ensures StartsWith(Strip(s), Fence) && !StartsWith(StripChars(Strip(s), "`"), "json") ==>
      r == StripChars(Strip(s), "`")
  {
    var t := Strip(s);
    if StartsWith(t, Fence) then DropTag(StripChars(t, "`")) else t
  }

  /** The tag step of `clean_json_block`: when the unfenced text starts with
      "json", delete the first "json\n" and then the first "\n" (each
      wherever it occurs, as `str.replace(old, "", 1)` does). */
  function DropTag(u: string): (r: string)
    ensures |r| <= |u|
  {
    if StartsWith(u, "json") then ReplaceFirst(ReplaceFirst(u, "json\n", ""), "\n", "") else u
  }

  /** Text that does not open with a fence (once whitespace is stripped)
      comes out exactly whitespace-stripped. */
  lemma CleanKeepsUnfenced(s: string)
    requires !StartsWith(Strip(s), Fence)
    ensures CleanJsonBlock(s) == Strip(s)
  {
  }

  /** Fenced text (once whitespace is stripped) loses all its outer
      backticks, then goes through the tag step. */
  lemma CleanFenced(s: string, u: string)
    requires Strip(s) == Fence + u + Fence
    requires |u| > 0 && u[0] != '`' && u[|u| - 1] != '`'
    ensures CleanJsonBlock(s) == DropTag(u)
  {
    var f := Fence + u + Fence;
    assert StartsWith(f, Fence) by {
      assert f[..3] == Fence;
    }
    assert StripChars(f, "`") == u by {
      assert AllIn(Fence, "`");
      StripCharsPadded(Fence, u, Fence, "`");
    }
  }

  lemma StripFenced(ws1: string, u: string, ws2: string)
    requires AllIn(ws1, Whitespace) && AllIn(ws2, Whitespace)
    ensures Strip(ws1 + Fence + u + Fence + ws2) == Fence + u + Fence
  {
    var f := Fence + u + Fence;
    assert ws1 + Fence + u + Fence + ws2 == ws1 + f + ws2;
    StripCharsPadded(ws1, f, ws2, Whitespace);
  }

  /** The tag step on a tagged one-line payload gives back the payload. */
  lemma DropTagOneLine(d: string)
    requires '\n' !in d
    ensures DropTag("json\n" + d + "\n") == d
  {
    var tag, w := "json\n", d + "\n";
    var u := tag + w;
    assert u == "json\n" + d + "\n";
    assert u[..4] == "json";
    assert u[..|tag|] == tag;
    ReplaceFirstPrefix(u, tag);
    assert u[|tag|..] == w;
    ReplaceFirstTrailingNewline(d);
  }

  /** A fenced block tagged `json`, with any surrounding whitespace, gives
      back exactly its payload, provided the payload is one line. */
  lemma CleanFencedJson(ws1: string, d: string, ws2: string)
    requires AllIn(ws1, Whitespace) && AllIn(ws2, Whitespace)
    requires '\n' !in d
    ensures CleanJsonBlock(ws1 + Fence + "json\n" + d + "\n" + Fence + ws2) == d
  {
    var u := "json\n" + d + "\n";
    var s := ws1 + Fence + u + Fence + ws2;
    assert ws1 + Fence + "json\n" + d + "\n" + Fence + ws2 == s;
    StripFenced(ws1, u, ws2);
    CleanFenced(s, u);
    DropTagOneLine(d);
  }

  /** A fenced block without the `json` tag only loses its backticks (and
      the whitespace around it): inner newlines are kept. */
  lemma CleanFencedUntagged(ws1: string, body: string, ws2: string)
    requires AllIn(ws1, Whitespace) && AllIn(ws2, Whitespace)
    requires |body| > 0 && body[0] != '`' && body[|body| - 1] != '`'
    requires !StartsWith(body, "json")
    ensures CleanJsonBlock(ws1 + Fence + body + Fence + ws2) == body
  {
    StripFenced(ws1, body, ws2);
    CleanFenced(ws1 + Fence + body + Fence + ws2, body);
  }

  /** The same without surrounding whitespace. */
  lemma CleanFencedJsonBare(d: string)
    requires '\n' !in d
    ensures CleanJsonBlock(Fence + "json\n" + d + "\n" + Fence) == d
  {
    var u := "json\n" + d + "\n";
    var f := Fence + u + Fence;
    assert Fence + "json\n" + d + "\n" + Fence == f;
    assert Strip(f) == f by {
      assert f[0] == '`' && f[|f| - 1] == '`';
      StripCharsKeeps(f, Whitespace);
    }
    CleanFenced(f, u);
    DropTagOneLine(d);
  }

  /** A tagged block on one line each for fence, body and closing fence. */
  lemma CleanFencedExample()
    ensures CleanJsonBlock("```json\n{\"1\":\"a\"}\n```") == "{\"1\":\"a\"}"
  {
    var d := "{\"1\":\"a\"}";
    assert "```json\n{\"1\":\"a\"}\n```" == Fence + "json\n" + d + "\n" + Fence;
    CleanFencedJsonBare(d);
  }

  /** JSON text as `json.dumps` writes it is left alone by the cleaning. */
  lemma CleanKeepsCompact(d: string)
    requires CompactText(d)
    ensures CleanJsonBlock(d) == d
  {
    StripCharsKeeps(d, Whitespace);
    if |d| >= 3 {
      assert d[..3][0] == d[0];
    }
  }

  /** A normalised model response: parsed JSON, or the reply as it came. */
  datatype Normalized = Structured(value: Json) | Raw(text: string)

  /** The try-parse step of every stage: `json.loads(clean_json_block(s))`,
      falling back to the ORIGINAL reply `s` (not the cleaned text) on a
      JSONDecodeError. */
  function Normalize(c: Codec, s: string): (r: Normalized)
    ensures r.Structured? <==> c.loads(CleanJsonBlock(s)).Some?
    ensures r.Structured? ==> c.loads(CleanJsonBlock(s)) == Some(r.value)
    ensures r.Raw? ==> r.text == s
  {
    match c.loads(CleanJsonBlock(s))
    case Some(v) => Structured(v)
    case None => Raw(s)
  }

  /** The value written into the record for a normalised response. */
  function Stored(n: Normalized): Json {
    match n
    case Structured(v) => v
    case Raw(t) => JString(t)
  }

  /** Round trip, unfenced: a reply that is exactly the JSON text of a value
      normalises back to that value. */
  lemma NormalizeRoundTrip(c: Codec, v: Json)
    requires CodecAssumption(c) && Readable(c, v)
    ensures Normalize(c, c.dumps(v)) == Structured(v)
  {
    CleanKeepsCompact(c.dumps(v));
  }

  /** Round trip, fenced: the same text wrapped in a `json` code fence
      normalises back to the value too. */
  lemma NormalizeFencedRoundTrip(c: Codec, v: Json)
    requires CodecAssumption(c) && Readable(c, v)
    ensures Normalize(c, Fence + "json\n" + c.dumps(v) + "\n" + Fence) == Structured(v)
  {
    assert CompactText(c.dumps(v));
    CleanFencedJsonBare(c.dumps(v));
  }

  /** What a stage stores in a record for a reply: the JSON parsed from the
      cleaned reply when it parses, otherwise the original reply as a
      string. When `loads` yields only readable values, the stored value is
      readable. */
  function ReplyField(c: Codec, reply: string): (r: Json)
    ensures c.loads(CleanJsonBlock(reply)).Some? ==> c.loads(CleanJsonBlock(reply)) == Some(r)
    ensures c.loads(CleanJsonBlock(reply)).None? ==> r == JString(reply)
    ensures LoadsReadable(c) ==> Readable(c, r)
  {
    Stored(Normalize(c, reply))
  }

  /** A reply that is not JSON, fenced or not, is stored exactly as it came. */
  lemma UnparsedReplyKept(c: Codec, reply: string)
    requires CompactText(reply) && c.loads(reply).None?
    ensures ReplyField(c, reply) == JString(reply)
  {
    CleanKeepsCompact(reply);
  }
}

=== FILE: pipeline.dfy ===
/** The four stages together: how a record grows from stage to stage, and
    what one stage hands the next through its output file. */
module Pipeline {
  import opened Common
  import opened Json
  import opened Base64
  import opened Images
  import opened Records
  import Normalize
  import Run1
  import Run2
  import Run3
  import Run4
  import CotGenerator

  /** The fields of a finished record, in the order the stages add them. */
  const AllKeys: seq<string> := Run1.Stage1Keys + ["edit", "step_edited", "CoT_Reedit"]

  /** Each stage's new key is new to the record it extends. */
  lemma NewKeys()
    ensures "edit" !in Run1.Stage1Keys
    ensures "step_edited" !in Run1.Stage1Keys + ["edit"]
    ensures "CoT_Reedit" !in Run1.Stage1Keys + ["edit", "step_edited"]
  {
    assert |"edit"| == 4 && |"step_edited"| == 11 && |"CoT_Reedit"| == 10;
    assert "CoT_Reedit"[0] != "difference"[0];
  }

  lemma AppendTwo<T>(a: seq<T>, x: T, y: T)
    ensures a + [x] + [y] == a + [x, y]
  {
  }

  lemma AppendThree<T>(a: seq<T>, x: T, y: T, z: T)
    ensures a + [x, y] + [z] == a + [x, y, z]
  {
  }

  /** Setting a new key appends it and keeps every earlier field. */
  lemma AppendsKey(before: Json, after: Json, k: string, v: Json, ks: seq<string>)
    requires SetsOnly(before, after, k, v) && Keys(before.fields) == ks && k !in ks
    ensures Keys(after.fields) == ks + [k]
    ensures forall k' :: k' in ks ==> Lookup(after.fields, k') == Lookup(before.fields, k')
  {
  }

  /** Three new keys set one after the other are appended in that order,
      and every earlier field stays as it was. */
  lemma ThreeAppends(rec1: Json, rec2: Json, rec3: Json, rec4: Json, v2: Json, v3: Json, v4: Json)
    requires rec1.JObject? && Keys(rec1.fields) == Run1.Stage1Keys
    requires SetsOnly(rec1, rec2, "edit", v2)
    requires SetsOnly(rec2, rec3, "step_edited", v3)
    requires SetsOnly(rec3, rec4, "CoT_Reedit", v4)
    ensures Keys(rec4.fields) == AllKeys
    ensures forall k :: k in Run1.Stage1Keys ==> Lookup(rec4.fields, k) == Lookup(rec1.fields, k)
  {
    NewKeys();
    var ks1 := Run1.Stage1Keys;
    AppendsKey(rec1, rec2, "edit", v2, ks1);
    AppendTwo(ks1, "edit", "step_edited");
    AppendsKey(rec2, rec3, "step_edited", v3, ks1 + ["edit"]);
    AppendThree(ks1, "edit", "step_edited", "CoT_Reedit");
    AppendsKey(rec3, rec4, "CoT_Reedit", v4, ks1 + ["edit", "step_edited"]);
  }

  /** A record that went through stages 2, 3 and 4 has exactly the six
      fields, in order, and still holds the stage-1 fields unchanged. */
  lemma KeysAccumulate(c: Codec, chat2: Chat, editor: Run3.StepEditor, chat4: Chat,
                       image: PyValue, rec1: Json, rec2: Json, rec3: Json, rec4: Json)
    requires rec1.JObject? && Keys(rec1.fields) == Run1.Stage1Keys
    requires Run2.Row(c, chat2, rec1, image) == Success(rec2)
    requires Run3.Row(editor, rec2, image) == Success(rec3)
    requires Run4.Row(c, chat4, rec3, image) == Success(rec4)
    ensures Keys(rec4.fields) == AllKeys
    ensures forall k :: k in Run1.Stage1Keys ==> Lookup(rec4.fields, k) == Lookup(rec1.fields, k)
  {
    ThreeAppends(rec1, rec2, rec3, rec4,
                 Normalize.ReplyField(c, Run2.Reply(c, chat2, rec1, image).value),
                 JString(Encode(Run3.Edited(editor, rec2, image).value)),
                 Normalize.ReplyField(c, Run4.Reply(c, chat4, rec3, image).value));
  }

  /** Stage 3 adds the step image and leaves the instruction alone; stage 4
      then decodes exactly the edited image and embeds the same instruction
      text stage 3 saw. */
  lemma StepImageHandOff(c: Codec, chat: Chat, editor: Run3.StepEditor, rec2: Json, image: PyValue, rec3: Json)
    requires Run3.Row(editor, rec2, image) == Success(rec3)
    ensures Get(rec3, "edit") == Get(rec2, "edit")
    ensures Get(rec3, "step_edited").Success?
    ensures Run4.StepImage(Get(rec3, "step_edited").value) == Success(Run3.Edited(editor, rec2, image).value)
    ensures Run4.Reply(c, chat, rec3, image)
         == CotGenerator.Generate(chat, PyBytes(Run3.Edited(editor, rec2, image).value), image,
                                  TextOf(c, Get(rec2, "edit").value))
  {
    var step := Run3.Edited(editor, rec2, image).value;
    Run4.StepImageOfEncoded(step);
  }

  /** Every record a stage loads is readable, when `loads` only yields
      readable values. */
  lemma LoadedReadable(c: Codec, lines: seq<string>)
    requires LoadsReadable(c) && Load(c, lines).Success?
    ensures forall i :: 0 <= i < |Load(c, lines).value| ==> Readable(c, Load(c, lines).value[i])
  {
    var ls, recs := NonBlank(lines), Load(c, lines).value;
    forall i | 0 <= i < |recs| ensures Readable(c, recs[i]) {
      assert c.loads(ls[i]) == Some(recs[i]);
    }
  }

  /** What stage 2 writes, stage 3 loads back unchanged. */
  lemma Stage2HandOff(c: Codec, chat: Chat, lines: seq<string>, images: seq<PyValue>)
    requires CodecAssumption(c)
    ensures var w := Run2.Shard(c, chat, lines, images).written;
      Load(c, SplitLines(Save(c, w))) == Success(w)
  {
    var w := Run2.Shard(c, chat, lines, images).written;
    if Load(c, lines).Success? {
      LoadedReadable(c, lines);
    }
    LoadSaveRoundTrip(c, w);
  }

  /** What stage 3 writes, stage 4 loads back unchanged. */
  lemma Stage3HandOff(c: Codec, editor: Run3.StepEditor, lines: seq<string>, images: seq<PyValue>)
    requires CodecAssumption(c)
    ensures var w := Run3.Shard(c, editor, lines, images).written;
      Load(c, SplitLines(Save(c, w))) == Success(w)
  {
    var w := Run3.Shard(c, editor, lines, images).written;
    if Load(c, lines).Success? {
      var recs := Load(c, lines).value;
      LoadedReadable(c, lines);
      forall i | 0 <= i < |w| ensures Readable(c, w[i]) {
        Run3.RowReadable(c, editor, recs[i], images[i]);
      }
    }
    LoadSaveRoundTrip(c, w);
  }

  /** What stage 1 writes, stage 2 loads back unchanged, when the image
      names are readable values. */
  lemma Stage1HandOff(c: Codec, chat: Chat, sources: seq<Run1.Cell>, targets: seq<Run1.Cell>)
    requires CodecAssumption(c)
    requires forall j :: 0 <= j < |sources| ==> Readable(c, sources[j].path)
    requires forall j :: 0 <= j < |targets| ==> Readable(c, targets[j].path)
    ensures var w := Run1.Shard(c, chat, sources, targets).written;
      Load(c, SplitLines(Save(c, w))) == Success(w)
  {
    var w := Run1.Shard(c, chat, sources, targets).written;
    forall i | 0 <= i < |w| ensures Readable(c, w[i]) {
      Run1.ShardShape(c, chat, sources, targets, i);
    }
    LoadSaveRoundTrip(c, w);
  }
}

=== FILE: records.dfy ===
/** The record stream every stage reads and writes: a `.jsonal` file with
    one JSON record per line, read by iterating the file's lines, stripping
    them, skipping blank ones and parsing the rest, and written as
    `json.dumps(rec) + "\n"` per record. Also the positional `zip` that
    pairs records with image rows, and the row loop that stops at the first
    exception. */
module Records {
  import opened Common
  import opened Text
  import opened Json

  function Concat(ls: seq<string>): string
    decreases |ls|
  {
    if |ls| == 0 then "" else ls[0] + Concat(ls[1..])
  }

  /** Iterating a text file: each line ends with its newline, except a last
      line that has none. */
  function SplitLines(s: string): (r: seq<string>)
    ensures Concat(r) == s
    ensures forall i :: 0 <= i < |r| ==> |r[i]| > 0 && '\n' !in r[i][..|r[i]| - 1]
    ensures forall i :: 0 <= i < |r| - 1 ==> r[i][|r[i]| - 1] == '\n'
    decreases |s|
  {
    if |s| == 0 then []
    else match FindFrom(s, "\n", 0)
      case None =>
        LastLine(s);
        [s]
      case Some(i) =>
        FirstLine(s, i);
        ConsLine(s[..i + 1], s[i + 1..], SplitLines(s[i + 1..]));
        [s[..i + 1]] + SplitLines(s[i + 1..])
  }

  /** A text without a newline is a single, unterminated line. */
  lemma LastLine(s: string)
    requires |s| > 0 && FindFrom(s, "\n", 0).None?
    ensures Concat([s]) == s && '\n' !in s[..|s| - 1]
  {
    NoNewlineBefore(s, |s| - 1);
    assert [s][1..] == [];
  }

  /** The text up to and including the first newline is one line. */
  lemma FirstLine(s: string, i: nat)
    requires FindFrom(s, "\n", 0) == Some(i)
    ensures i < |s| && s[i] == '\n' && '\n' !in s[..i]
    ensures var line := s[..i + 1]; |line| > 0 && line[|line| - 1] == '\n' && '\n' !in line[..|line| - 1]
    ensures s[..i + 1] + s[i + 1..] == s
  {
    NoNewlineBefore(s, i);
    assert s[i..i + 1] == "\n";
    assert s[..i + 1][..i] == s[..i];
  }

  /** No newline before the first place `find` could report one. */
  lemma NoNewlineBefore(s: string, i: nat)
    requires i <= |s|
    requires forall j :: 0 <= j < i ==> !OccursAt(s, "\n", j)
    ensures '\n' !in s[..i]
  {
    forall j | 0 <= j < i ensures s[..i][j] != '\n' {
      assert s[j..j + 1] == [s[j]] && !OccursAt(s, "\n", j);
      assert s[..i][j] == s[j];
    }
  }

  /** Putting a newline-terminated line in front of the lines of the rest of
      the text gives the lines of the whole text. */
  lemma ConsLine(line: string, rest: string, ls: seq<string>)
    requires |line| > 0 && line[|line| - 1] == '\n' && '\n' !in line[..|line| - 1]
    requires Concat(ls) == rest
    requires forall i :: 0 <= i < |ls| ==> |ls[i]| > 0 && '\n' !in ls[i][..|ls[i]| - 1]
    requires forall i :: 0 <= i < |ls| - 1 ==> ls[i][|ls[i]| - 1] == '\n'
    ensures var r := [line] + ls;
      && Concat(r) == line + rest
      && (forall i :: 0 <= i < |r| ==> |r[i]| > 0 && '\n' !in r[i][..|r[i]| - 1])
      && (forall i :: 0 <= i < |r| - 1 ==> r[i][|r[i]| - 1] == '\n')
  {
    var r := [line] + ls;
    assert r[1..] == ls;
    assert forall i :: 1 <= i < |r| ==> r[i] == ls[i - 1];
  }

  /** A line as `save` writes it: one record's text and a newline. */
  predicate IsSavedLine(l: string) {
    |l| > 0 && l[|l| - 1] == '\n' && '\n' !in l[..|l| - 1]
  }

  lemma FirstNewline(l: string, t: string)
    requires IsSavedLine(l)
    ensures FindFrom(l + t, "\n", 0) == Some(|l| - 1)
  {
    var s := l + t;
    forall j | 0 <= j < |l| - 1 ensures !OccursAt(s, "\n", j) {
      assert s[j..j + 1] == [l[j]];
      assert l[j] == l[..|l| - 1][j];
    }
    assert s[|l| - 1..|l|] == "\n";
    assert OccursAt(s, "\n", |l| - 1);
    var r := FindFrom(s, "\n", 0);
    assert r.Some?;
    assert r.value <= |l| - 1;
    assert OccursAt(s, "\n", r.value);
    assert r.value >= |l| - 1;
  }

  /** Reading back a file made of saved lines yields exactly those lines. */
  lemma {:induction false} SplitSavedLines(ls: seq<string>)
    requires forall i :: 0 <= i < |ls| ==> IsSavedLine(ls[i])
    ensures SplitLines(Concat(ls)) == ls
    decreases |ls|
  {
    if |ls| > 0 {
      var l, t := ls[0], Concat(ls[1..]);
      FirstNewline(l, t);
      SplitSavedLines(ls[1..]);
      var s := l + t;
      assert s[..|l|] == l && s[|l|..] == t;
    }
  }

  /** One line after stripping: nothing when it was blank. */
  function Kept(l: string): (r: seq<string>)
    ensures |r| <= 1 && forall i :: 0 <= i < |r| ==> |r[i]| > 0
  {
    var t := Strip(l);
    if |t| == 0 then [] else [t]
  }

  /** The stripped, non-blank lines, in file order. */
  function NonBlank(lines: seq<string>): (r: seq<string>)
    ensures |r| <= |lines|
    ensures forall i :: 0 <= i < |r| ==> |r[i]| > 0
    decreases |lines|
  {
    if |lines| == 0 then [] else Kept(lines[0]) + NonBlank(lines[1..])
  }

  /** Filtering lines distributes over concatenation: it keeps the order of
      the lines and looks at each line on its own. */
  lemma {:induction false} NonBlankAppend(a: seq<string>, b: seq<string>)
    ensures NonBlank(a + b) == NonBlank(a) + NonBlank(b)
    decreases |a|
  {
    if |a| > 0 {
      ConsAppend(a, b);
      NonBlankAppend(a[1..], b);
      AppendAssoc(Kept(a[0]), NonBlank(a[1..]), NonBlank(b));
    } else {
      assert a + b == b;
    }
  }

  lemma ConsAppend<T>(a: seq<T>, b: seq<T>)
    requires |a| > 0
    ensures |a + b| > 0 && (a + b)[0] == a[0] && (a + b)[1..] == a[1..] + b
  {
  }

  lemma AppendAssoc<T>(x: seq<T>, y: seq<T>, z: seq<T>)
    ensures x + (y + z) == (x + y) + z
  {
  }

  /** Blank lines, whatever whitespace they hold, contribute nothing. */
  lemma NonBlankSingle(l: string)
    ensures NonBlank([l]) == if AllIn(l, Whitespace) then [] else [Strip(l)]
  {
    assert [l][1..] == [];
  }

  /** Map `step` over `rows`, stopping at the first failure, which is then
      the result (a Python loop with no `try`). */
  function Collect<R, W>(rows: seq<R>, step: R -> Result<W>): (r: Result<seq<W>>)
    ensures r.Success? <==> forall i :: 0 <= i < |rows| ==> step(rows[i]).Success?
    ensures r.Success? ==> |r.value| == |rows| && forall i :: 0 <= i < |rows| ==> step(rows[i]) == Success(r.value[i])
    ensures r.Failure? ==> exists i :: 0 <= i < |rows| && step(rows[i]) == Failure(r.error)
                                    && forall j :: 0 <= j < i ==> step(rows[j]).Success?
  {
    var run := RunRows(rows, step);
    match run.failure
    case None => Success(run.written)
    case Some(e) =>
      assert step(rows[|run.written|]) == Failure(e);
      Failure(e)
  }

  /** `json.loads` on each stripped line in turn; the first line that does
      not parse raises, and nothing is returned. */
  function ParseAll(c: Codec, ls: seq<string>): (r: Result<seq<Json>>)
    ensures r.Success? <==> forall i :: 0 <= i < |ls| ==> c.loads(ls[i]).Some?
    ensures r.Success? ==> |r.value| == |ls| && forall i :: 0 <= i < |ls| ==> c.loads(ls[i]) == Some(r.value[i])
    ensures r.Failure? ==> exists i :: 0 <= i < |ls| && c.loads(ls[i]).None? && r.error == JsonDecodeError(ls[i])
                                    && forall j :: 0 <= j < i ==> c.loads(ls[j]).Some?
    decreases |ls|
  {
    if |ls| == 0 then Success([])
    else match c.loads(ls[0])
      case None => Failure(JsonDecodeError(ls[0]))
      case Some(v) =>
        match ParseAll(c, ls[1..])
        case Failure(e) =>
          assert forall i :: 0 <= i < |ls| - 1 ==> ls[1..][i] == ls[i + 1];
          Failure(e)
        case Success(vs) => Success([v] + vs)
  }

  /** Loading a `.jsonal` file given as its lines: one record per non-blank
      line, in order; one bad line fails the whole load. */
  function Load(c: Codec, lines: seq<string>): (r: Result<seq<Json>>)
    ensures r.Success? <==> forall i :: 0 <= i < |NonBlank(lines)| ==> c.loads(NonBlank(lines)[i]).Some?
    ensures r.Success? ==> |r.value| == |NonBlank(lines)|
    ensures r.Success? ==> forall i :: 0 <= i < |NonBlank(lines)| ==> c.loads(NonBlank(lines)[i]) == Some(r.value[i])
    ensures r.Failure? ==> exists i :: 0 <= i < |NonBlank(lines)| && c.loads(NonBlank(lines)[i]).None?
                                  && r.error == JsonDecodeError(NonBlank(lines)[i])
                                  && forall j :: 0 <= j < i ==> c.loads(NonBlank(lines)[j]).Some?
  {
    var r := ParseAll(c, NonBlank(lines));
    ParsedLines(c, NonBlank(lines), r);
    r
  }

  /** ParseAll's contract, restated for a given list of lines. */
  lemma ParsedLines(c: Codec, ls: seq<string>, r: Result<seq<Json>>)
    requires r == ParseAll(c, ls)
    ensures r.Success? <==> forall i :: 0 <= i < |ls| ==> c.loads(ls[i]).Some?
    ensures r.Success? ==> |r.value| == |ls|
    ensures r.Success? ==> forall i :: 0 <= i < |ls| ==> c.loads(ls[i]) == Some(r.value[i])
    ensures r.Failure? ==> exists i :: 0 <= i < |ls| && c.loads(ls[i]).None?
                                  && r.error == JsonDecodeError(ls[i])
                                  && forall j :: 0 <= j < i ==> c.loads(ls[j]).Some?
  {
  }

  /** One output line: the record's JSON text and a newline. */
  function Line(c: Codec, rec: Json): string {
    c.dumps(rec) + "\n"
  }

  /** The lines a stage writes, one per record in order. */
  function SaveLines(c: Codec, recs: seq<Json>): (r: seq<string>)
    ensures |r| == |recs|
    ensures forall i :: 0 <= i < |r| ==> r[i] == Line(c, recs[i])
    decreases |recs|
  {
    if |recs| == 0 then [] else [Line(c, recs[0])] + SaveLines(c, recs[1..])
  }

  /** The text a stage writes for its records. When no record's JSON text
      holds a newline, reading the text line by line gives back exactly one
      line per record. */
  function Save(c: Codec, recs: seq<Json>): (r: string)
    ensures (forall i :: 0 <= i < |recs| ==> '\n' !in c.dumps(recs[i])) ==> SplitLines(r) == SaveLines(c, recs)
  {
    SavedLinesSplit(c, recs);
    Concat(SaveLines(c, recs))
  }

  lemma SavedLinesSplit(c: Codec, recs: seq<Json>)
    ensures (forall i :: 0 <= i < |recs| ==> '\n' !in c.dumps(recs[i])) ==>
      SplitLines(Concat(SaveLines(c, recs))) == SaveLines(c, recs)
  {
    var ls := SaveLines(c, recs);
    if forall i :: 0 <= i < |recs| ==> '\n' !in c.dumps(recs[i]) {
      forall i | 0 <= i < |ls| ensures IsSavedLine(ls[i]) {
        var d := c.dumps(recs[i]);
        assert ls[i] == d + "\n";
        assert ls[i][..|ls[i]| - 1] == d;
      }
      SplitSavedLines(ls);
    }
  }

  lemma StripSavedLine(c: Codec, rec: Json)
    requires CodecAssumption(c) && Readable(c, rec)
    ensures Strip(Line(c, rec)) == c.dumps(rec)
    ensures IsSavedLine(Line(c, rec))
  {
    var d := c.dumps(rec);
    assert CompactText(d);
    assert AllIn("", Whitespace) && AllIn("\n", Whitespace);
    StripCharsPadded("", d, "\n", Whitespace);
    assert "" + d + "\n" == Line(c, rec);
    assert Line(c, rec)[..|d|] == d;
  }

  lemma {:induction false} NonBlankSaved(c: Codec, recs: seq<Json>)
    requires CodecAssumption(c)
    requires forall i :: 0 <= i < |recs| ==> Readable(c, recs[i])
    ensures var ls := NonBlank(SaveLines(c, recs));
      |ls| == |recs| && forall i :: 0 <= i < |recs| ==> ls[i] == c.dumps(recs[i])
    decreases |recs|
  {
    if |recs| > 0 {
      var first := Line(c, recs[0]);
      StripSavedLine(c, recs[0]);
      assert SaveLines(c, recs)[1..] == SaveLines(c, recs[1..]);
      NonBlankSaved(c, recs[1..]);
    }
  }

  /** What a stage saves, the next stage loads back unchanged: the records
      come back in order, one per line, under the codec assumption. */
  lemma LoadSaveRoundTrip(c: Codec, recs: seq<Json>)
    requires CodecAssumption(c)
    requires forall i :: 0 <= i < |recs| ==> Readable(c, recs[i])
    ensures Load(c, SplitLines(Save(c, recs))) == Success(recs)
  {
    var ls := SaveLines(c, recs);
    forall i | 0 <= i < |ls| ensures IsSavedLine(ls[i]) {
      StripSavedLine(c, recs[i]);
    }
    SplitSavedLines(ls);
    NonBlankSaved(c, recs);
    var r := Load(c, ls);
    assert r.Success?;
    assert r.value == recs;
  }

  /** Python's `zip`: pairs by position, as long as the shorter input. */
  function Zip<A, B>(a: seq<A>, b: seq<B>): (r: seq<(A, B)>)
    ensures |r| == if |a| <= |b| then |a| else |b|
    ensures forall i :: 0 <= i < |r| ==> r[i] == (a[i], b[i])
    decreases |a|
  {
    if |a| == 0 || |b| == 0 then [] else [(a[0], b[0])] + Zip(a[1..], b[1..])
  }

  /** What one shard's loop leaves behind: the records written before the
      loop ended, and the exception that ended it, if any. */
  datatype Run<W> = Run(written: seq<W>, failure: Option<Error>)

  /** A `for` loop over `rows` writing one output per row, with no `try`:
      the first exception ends it, after the earlier rows were written. */
  function RunRows<R, W>(rows: seq<R>, step: R -> Result<W>): (r: Run<W>)
    ensures |r.written| <= |rows|
    ensures forall i :: 0 <= i < |r.written| ==> step(rows[i]) == Success(r.written[i])
    ensures r.failure.None? <==> |r.written| == |rows|
    ensures r.failure.Some? ==> step(rows[|r.written|]) == Failure(r.failure.value)
    decreases |rows|
  {
    if |rows| == 0 then Run([], None)
    else match step(rows[0])
      case Failure(e) => Run([], Some(e))
      case Success(w) =>
        var rest := RunRows(rows[1..], step);
        Run([w] + rest.written, rest.failure)
  }

  /** What one shard leaves behind: whether it opened (created or
      truncated) its output file, the records written to that file, and the
      exception that ended the shard, if any. */
  datatype Output<W> = Output(fileOpened: bool, written: seq<W>, failure: Option<Error>)

  /** One shard of stages 2 to 4: load the previous stage's records (a bad
      line raises before the output file is opened), open the output, pair
      the records with the shard's image rows by position, and run `row`
      over the pairs until the shorter list ends or a row raises. */
  function Extend<I>(c: Codec, lines: seq<string>, images: seq<I>, row: (Json, I) -> Result<Json>): (r: Output<Json>)
    ensures r.fileOpened <==> Load(c, lines).Success?
    ensures Load(c, lines).Failure? ==> r == Output(false, [], Some(Load(c, lines).error))
    ensures Load(c, lines).Success? ==>
      var recs := Load(c, lines).value;
      && |r.written| <= |recs| && |r.written| <= |images|
      && (forall i :: 0 <= i < |r.written| ==> row(recs[i], images[i]) == Success(r.written[i]))
      && (r.failure.None? <==> |r.written| == |recs| || |r.written| == |images|)
      && (r.failure.Some? ==> row(recs[|r.written|], images[|r.written|]) == Failure(r.failure.value))
  {
    match Load(c, lines)
    case Failure(e) => Output(false, [], Some(e))
    case Success(recs) =>
      var run := RunRows(Zip(recs, images), (p: (Json, I)) => row(p.0, p.1));
      Output(true, run.written, run.failure)
  }
}

=== FILE: run1.dfy ===
/** Stage 1's driver for one shard: every (source, target) image pair of the
    shard is described by the difference generator, and one record per row
    is written with the two image names and the normalised description. */
module Run1 {
  import opened Common
  import opened Text
  import opened Json
  import opened Normalize
  import opened Images
  import opened Records
  import DifferenceGenerator

  /** One image cell of a parquet row: the image bytes and the image's
      logical name, as stored in the shard. */
  datatype Cell = Cell(bytes: PyValue, path: Json)

  const Stage1Keys: seq<string> := ["source", "target", "difference"]

  function Bytes(cells: seq<Cell>): (r: seq<PyValue>)
    ensures |r| == |cells| && forall i :: 0 <= i < |cells| ==> r[i] == cells[i].bytes
  {
    seq(|cells|, i requires 0 <= i < |cells| => cells[i].bytes)
  }

  /** The record written for one row: exactly the three stage-1 fields, in
      this order, the description parsed when the cleaned reply is JSON and
      the reply itself otherwise. */
  function Record(c: Codec, source: Json, target: Json, reply: string): (r: Json)
    ensures r.JObject? && Keys(r.fields) == Stage1Keys
    ensures Lookup(r.fields, "source") == Some(source)
    ensures Lookup(r.fields, "target") == Some(target)
    ensures Lookup(r.fields, "difference") == Some(ReplyField(c, reply))
    ensures LoadsReadable(c) && Readable(c, source) && Readable(c, target) ==> Readable(c, r)
  {
    var d := ReplyField(c, reply);
    Stage1KeysDistinct();
    ThreeFields("source", source, "target", target, "difference", d);
    ThreeValuesReadable(c, [("source", source), ("target", target), ("difference", d)]);
    JObject([("source", source), ("target", target), ("difference", d)])
  }

  lemma Stage1KeysDistinct()
    ensures Stage1Keys == ["source", "target", "difference"]
    ensures "source" != "target" && "source" != "difference" && "target" != "difference"
  {
    assert "source"[0] != "target"[0] && "source"[0] != "difference"[0] && "target"[0] != "difference"[0];
  }

  /** The records for rows whose replies all came back. */
  function Rows(c: Codec, sources: seq<Cell>, targets: seq<Cell>, replies: seq<string>): (r: seq<Json>)
    requires |sources| == |targets| == |replies|
    ensures |r| == |replies|
    ensures forall i :: 0 <= i < |r| ==> r[i] == Record(c, sources[i].path, targets[i].path, replies[i])
  {
    seq(|replies|, i requires 0 <= i < |replies| => Record(c, sources[i].path, targets[i].path, replies[i]))
  }

  /** One shard: all replies are gathered first (`process_batch`), so an
      exception, including the length check, raises before the output file
      is opened; then one record per row, in row order. */
  function Shard(c: Codec, chat: Chat, sources: seq<Cell>, targets: seq<Cell>): (r: Output<Json>)
    ensures |sources| != |targets| ==> r == Output(false, [], Some(ValueError(DifferenceGenerator.LengthMismatch)))
    ensures r.fileOpened <==> r.failure.None?
    ensures r.failure.Some? ==> r.written == []
    ensures |sources| == |targets| ==>
      (r.failure.None? <==> forall i :: 0 <= i < |sources| ==>
         DifferenceGenerator.DescribeDifference(chat, sources[i].bytes, targets[i].bytes).Success?)
    ensures r.failure.None? ==> |r.written| == |sources| == |targets|
    ensures r.failure.None? ==> forall i :: 0 <= i < |r.written| ==>
      r.written[i] == Record(c, sources[i].path, targets[i].path,
                             DifferenceGenerator.DescribeDifference(chat, sources[i].bytes, targets[i].bytes).value)
  {
    match DifferenceGenerator.ProcessBatch(chat, Bytes(sources), Bytes(targets))
    case Failure(e) => Output(false, [], Some(e))
    case Success(replies) => Output(true, Rows(c, sources, targets, replies), None)
  }

  /** Every record of a completed stage-1 shard has exactly the three
      stage-1 keys, and is readable when the names are. */
  lemma ShardShape(c: Codec, chat: Chat, sources: seq<Cell>, targets: seq<Cell>, i: int)
    requires LoadsReadable(c)
    requires forall j :: 0 <= j < |sources| ==> Readable(c, sources[j].path)
    requires forall j :: 0 <= j < |targets| ==> Readable(c, targets[j].path)
    requires 0 <= i < |Shard(c, chat, sources, targets).written|
    ensures Keys(Shard(c, chat, sources, targets).written[i].fields) == Stage1Keys
    ensures Readable(c, Shard(c, chat, sources, targets).written[i])
  {
  }

  /** The example mapping a description stub returns for the first row. */
  const ColorDifference: Json := JObject([("1", JString("There is a difference at color, ..."))])

  lemma ColorDifferenceReadable(c: Codec)
    ensures Readable(c, ColorDifference)
  {
    assert DistinctKeys(ColorDifference.fields);
  }

  /** A reply that is the JSON text of the mapping is stored as the
      mapping. */
  lemma ColorReplyParsed(c: Codec)
    requires CodecAssumption(c)
    ensures ReplyField(c, c.dumps(ColorDifference)) == ColorDifference
  {
    ColorDifferenceReadable(c);
    NormalizeRoundTrip(c, ColorDifference);
  }

  /** The reply "oops" is not JSON, so it is stored as that string. */
  lemma OopsKept(c: Codec)
    requires c.loads("oops").None?
    ensures ReplyField(c, "oops") == JString("oops")
  {
    assert CompactText("oops") by {
      assert !IsSpace('o') && !IsSpace('s');
    }
    UnparsedReplyKept(c, "oops");
  }

  /** A shard of two rows whose replies both come back is written as two
      records, one per row, in row order. */
  lemma TwoRows(c: Codec, chat: Chat, sources: seq<Cell>, targets: seq<Cell>, reply0: string, reply1: string)
    requires |sources| == |targets| == 2
    requires DifferenceGenerator.DescribeDifference(chat, sources[0].bytes, targets[0].bytes) == Success(reply0)
    requires DifferenceGenerator.DescribeDifference(chat, sources[1].bytes, targets[1].bytes) == Success(reply1)
    ensures var r := Shard(c, chat, sources, targets);
      && r.failure.None? && |r.written| == 2
      && r.written[0] == Record(c, sources[0].path, targets[0].path, reply0)
      && r.written[1] == Record(c, sources[1].path, targets[1].path, reply1)
  {
  }

  /** A shard of two rows whose first reply is the JSON text of a mapping
      and whose second reply is "oops": two records are written, the first
      holding the mapping and the second the literal string "oops". */
  lemma TwoRowScenario(c: Codec, chat: Chat, sources: seq<Cell>, targets: seq<Cell>)
    requires CodecAssumption(c) && c.loads("oops").None?
    requires |sources| == |targets| == 2
    requires DifferenceGenerator.DescribeDifference(chat, sources[0].bytes, targets[0].bytes) == Success(c.dumps(ColorDifference))
    requires DifferenceGenerator.DescribeDifference(chat, sources[1].bytes, targets[1].bytes) == Success("oops")
    ensures var r := Shard(c, chat, sources, targets);
      && r.failure.None? && |r.written| == 2
      && Lookup(r.written[0].fields, "difference") == Some(ColorDifference)
      && Lookup(r.written[1].fields, "difference") == Some(JString("oops"))
  {
    TwoRows(c, chat, sources, targets, c.dumps(ColorDifference), "oops");
    ColorReplyParsed(c);
    OopsKept(c);
  }
}

=== FILE: run2.dfy ===
/** Stage 2's driver for one shard: each stage-1 record is paired with the
    shard's source image of the same row, the generator is asked for editing
    instructions, and the record is written again with the normalised reply
    added under "edit". */
module Run2 {
  import opened Common
  import opened Text
  import opened Json
  import opened Normalize
  import opened Images
  import opened Records
  import InstructionGenerator

  /** The reply for one record: the description text is the record's
      "difference" field, a string used verbatim and anything else as its
      JSON text. */
  function Reply(c: Codec, chat: Chat, rec: Json, image: PyValue): (r: Result<string>)
    ensures Get(rec, "difference").Failure? ==> r == Failure(Get(rec, "difference").error)
    ensures Get(rec, "difference").Success? ==>
      r == InstructionGenerator.GenerateInstructions(chat, image, TextOf(c, Get(rec, "difference").value))
  {
    var difference :- Get(rec, "difference");
    InstructionGenerator.GenerateInstructions(chat, image, TextOf(c, difference))
  }

  /** One row: the record gains "edit", holding the parsed reply or the
      reply itself, and nothing else changes. */
  function Row(c: Codec, chat: Chat, rec: Json, image: PyValue): (r: Result<Json>)
    ensures r.Success? <==> Reply(c, chat, rec, image).Success?
    ensures r.Failure? ==> r.error == Reply(c, chat, rec, image).error
    ensures r.Success? ==> SetsOnly(rec, r.value, "edit", ReplyField(c, Reply(c, chat, rec, image).value))
    ensures r.Success? && LoadsReadable(c) && Readable(c, rec) ==> Readable(c, r.value)
  {
    var reply :- Reply(c, chat, rec, image);
    AssignReadable(c, rec, "edit", ReplyField(c, reply));
    Success(Assign(rec, "edit", ReplyField(c, reply)))
  }

  /** One shard: the stage-1 records loaded from their lines, each paired
      with the source image of its row. */
  function Shard(c: Codec, chat: Chat, lines: seq<string>, images: seq<PyValue>): (r: Output<Json>)
    ensures r.fileOpened <==> Load(c, lines).Success?
    ensures Load(c, lines).Failure? ==> r == Output(false, [], Some(Load(c, lines).error))
    ensures Load(c, lines).Success? ==>
      var recs := Load(c, lines).value;
      && |r.written| <= |recs| && |r.written| <= |images|
      && (forall i :: 0 <= i < |r.written| ==> Row(c, chat, recs[i], images[i]) == Success(r.written[i]))
      && (r.failure.None? <==> |r.written| == |recs| || |r.written| == |images|)
      && (r.failure.Some? ==> Row(c, chat, recs[|r.written|], images[|r.written|]) == Failure(r.failure.value))
  {
    Extend(c, lines, images, (rec, image) => Row(c, chat, rec, image))
  }

  /** A structured description reaches the endpoint losslessly: what stands
      between the tags of the request is JSON text that parses back to the
      stored description. */
  lemma StructuredDescriptionRecovered(c: Codec, rec: Json)
    requires CodecAssumption(c) && Readable(c, rec)
    requires Get(rec, "difference").Success? && !Get(rec, "difference").value.JString?
    ensures var d := Get(rec, "difference").value;
      var t := Unframe(InstructionGenerator.UserText(TextOf(c, d)),
                       InstructionGenerator.OpenTag, InstructionGenerator.CloseTag + InstructionGenerator.Instruction);
      t.Some? && c.loads(t.value) == Some(d)
  {
    var d := Get(rec, "difference").value;
    assert Readable(c, d) by {
      var i :| 0 <= i < |rec.fields| && rec.fields[i] == ("difference", d);
    }
    InstructionGenerator.UnframeUserText(TextOf(c, d));
    TextOfRecovers(c, d);
  }
}

=== FILE: run3.dfy ===
/** Stage 3's driver for one shard: each stage-2 record is paired with the
    shard's source image of the same row, one editing action is applied to
    the image by the step editor, and the record is written again with the
    edited image, base64-encoded, under "step_edited". */
module Run3 {
  import opened Common
  import opened Json
  import opened Base64
  import opened Images
  import opened Records

  /** The image editing endpoint together with the image library in front
      of it: the source image and the action text in, the edited image's
      bytes out, or the exception raised while opening the image or editing
      it. */
  type StepEditor = (PyValue, Json) -> Result<seq<byte>>

  /** The action applied: a string "edit" is used verbatim; for a mapping
      only the action under "1" is used, and an empty string when there is
      none; any other value has no `get` and raises AttributeError. */
  function Action(edit: Json): (r: Result<Json>)
    ensures edit.JString? ==> r == Success(edit)
    ensures edit.JObject? ==> r.Success?
    ensures edit.JObject? && "1" in Keys(edit.fields) ==> Lookup(edit.fields, "1") == Some(r.value)
    ensures edit.JObject? && "1" !in Keys(edit.fields) ==> r.value == JString("")
    ensures !edit.JString? && !edit.JObject? ==> r.Failure? && r.error.AttributeError?
  {
    match edit
    case JString(_) => Success(edit)
    case JObject(fs) => Success(Lookup(fs, "1").GetOr(JString("")))
    case _ => Failure(AttributeError("'" + TypeName(edit) + "' object has no attribute 'get'"))
  }

  /** Only the first action matters: two mappings that agree on "1" select
      the same action, whatever else they hold. */
  lemma ActionOneOnly(fs: Fields, gs: Fields)
    requires Lookup(fs, "1") == Lookup(gs, "1")
    ensures Action(JObject(fs)) == Action(JObject(gs))
  {
  }

  /** The action a mapping of two actions and the bare first action select
      are the same text. */
  lemma ActionExample()
    ensures Action(JObject([("1", JString("make sky blue")), ("2", JString("add tree"))])) == Success(JString("make sky blue"))
    ensures Action(JString("make sky blue")) == Success(JString("make sky blue"))
  {
    var fs := [("1", JString("make sky blue")), ("2", JString("add tree"))];
    assert Keys(fs)[0] == "1";
  }

  /** The edited image for one record, or the exception raised on the way. */
  function Edited(editor: StepEditor, rec: Json, image: PyValue): (r: Result<seq<byte>>)
    ensures Get(rec, "edit").Failure? ==> r == Failure(Get(rec, "edit").error)
    ensures Get(rec, "edit").Success? && Action(Get(rec, "edit").value).Success? ==>
      r == editor(image, Action(Get(rec, "edit").value).value)
    ensures r.Success? ==> Get(rec, "edit").Success? && Action(Get(rec, "edit").value).Success?
  {
    var edit :- Get(rec, "edit");
    var action :- Action(edit);
    editor(image, action)
  }

  /** One row: the record gains "step_edited", the base64 text of the edited
      image, and nothing else changes; that text decodes to exactly the
      edited image. */
  function Row(editor: StepEditor, rec: Json, image: PyValue): (r: Result<Json>)
    ensures r.Success? <==> Edited(editor, rec, image).Success?
    ensures r.Failure? ==> r.error == Edited(editor, rec, image).error
    ensures r.Success? ==> SetsOnly(rec, r.value, "step_edited", JString(Encode(Edited(editor, rec, image).value)))
    ensures r.Success? ==> Decode(Lookup(r.value.fields, "step_edited").value.s) == Some(Edited(editor, rec, image).value)
    ensures r.Success? && WellFormed(rec) ==> WellFormed(r.value)
  {
    var step :- Edited(editor, rec, image);
    DecodeEncode(step);
    Success(Assign(rec, "step_edited", JString(Encode(step))))
  }

  /** The stored text is a string, so a readable record stays readable
      whatever the codec. */
  lemma RowReadable(c: Codec, editor: StepEditor, rec: Json, image: PyValue)
    requires Row(editor, rec, image).Success? && Readable(c, rec)
    ensures Readable(c, Row(editor, rec, image).value)
  {
    var step := Edited(editor, rec, image).value;
    AssignReadable(c, rec, "step_edited", JString(Encode(step)));
  }

  /** One shard: the stage-2 records loaded from their lines, each paired
      with the source image of its row. */
  function Shard(c: Codec, editor: StepEditor, lines: seq<string>, images: seq<PyValue>): (r: Output<Json>)
    ensures r.fileOpened <==> Load(c, lines).Success?
    ensures Load(c, lines).Failure? ==> r == Output(false, [], Some(Load(c, lines).error))
    ensures Load(c, lines).Success? ==>
      var recs := Load(c, lines).value;
      && |r.written| <= |recs| && |r.written| <= |images|
      && (forall i :: 0 <= i < |r.written| ==> Row(editor, recs[i], images[i]) == Success(r.written[i]))
      && (r.failure.None? <==> |r.written| == |recs| || |r.written| == |images|)
      && (r.failure.Some? ==> Row(editor, recs[|r.written|], images[|r.written|]) == Failure(r.failure.value))
  {
    Extend(c, lines, images, (rec, image) => Row(editor, rec, image))
  }
}

=== FILE: run4.dfy ===
/** Stage 4's driver for one shard: each stage-3 record is paired with the
    shard's source image of the same row, the step image is decoded from the
    record, the generator is asked for a critique and re-editing
    instructions, and the record is written again with the normalised reply
    under "CoT_Reedit". */
module Run4 {
  import opened Common
  import opened Json
  import opened Normalize
  import opened Base64
  import opened Images
  import opened Records
  import CotGenerator

  /** `base64.b64decode` of the stored "step_edited" value: a string is
      decoded, anything else raises TypeError. */
  function StepImage(v: Json): (r: Result<seq<byte>>)
    ensures r.Success? <==> v.JString? && Decode(v.s).Some?
    ensures r.Success? ==> Encode(r.value) == v.s
    ensures v.JString? && r.Failure? ==> r.error == Base64Error(v.s)
    ensures !v.JString? ==> r.Failure? && r.error.TypeError?
  {
    match v
    case JString(s) =>
      (match Decode(s)
       case Some(b) => EncodeDecodeIff(s, b); Success(b)
       case None => Failure(Base64Error(s)))
    case _ => Failure(TypeError("argument should be a bytes-like object or ASCII string, not '" + TypeName(v) + "'"))
  }

  /** What stage 3 stores, stage 4 reads back as the same bytes. */
  lemma StepImageOfEncoded(b: seq<byte>)
    ensures StepImage(JString(Encode(b))) == Success(b)
  {
    DecodeEncode(b);
  }

  /** The reply for one record: the instruction text is the record's "edit"
      field (a string verbatim, anything else as its JSON text), the step
      image is the decoded "step_edited" field, and the request carries the
      row's source image too. */
  function Reply(c: Codec, chat: Chat, rec: Json, image: PyValue): (r: Result<string>)
    ensures Get(rec, "edit").Failure? ==> r == Failure(Get(rec, "edit").error)
    ensures Get(rec, "edit").Success? && Get(rec, "step_edited").Failure? ==> r == Failure(Get(rec, "step_edited").error)
    ensures r.Success? ==>
      && Get(rec, "edit").Success? && Get(rec, "step_edited").Success?
      && StepImage(Get(rec, "step_edited").value).Success?
      && r == CotGenerator.Generate(chat, PyBytes(StepImage(Get(rec, "step_edited").value).value), image,
                                    TextOf(c, Get(rec, "edit").value))
  {
    var edit :- Get(rec, "edit");
    var text := TextOf(c, edit);
    var stored :- Get(rec, "step_edited");
    var step :- StepImage(stored);
    CotGenerator.Generate(chat, PyBytes(step), image, text)
  }

  /** One row: the record gains "CoT_Reedit", holding the parsed reply or
      the reply itself, and nothing else changes. */
  function Row(c: Codec, chat: Chat, rec: Json, image: PyValue): (r: Result<Json>)
    ensures r.Success? <==> Reply(c, chat, rec, image).Success?
    ensures r.Failure? ==> r.error == Reply(c, chat, rec, image).error
    ensures r.Success? ==> SetsOnly(rec, r.value, "CoT_Reedit", ReplyField(c, Reply(c, chat, rec, image).value))
    ensures r.Success? && LoadsReadable(c) && Readable(c, rec) ==> Readable(c, r.value)
  {
    var reply :- Reply(c, chat, rec, image);
    AssignReadable(c, rec, "CoT_Reedit", ReplyField(c, reply));
    Success(Assign(rec, "CoT_Reedit", ReplyField(c, reply)))
  }

  /** One shard: the stage-3 records loaded from their lines, each paired
      with the source image of its row. */
  function Shard(c: Codec, chat: Chat, lines: seq<string>, images: seq<PyValue>): (r: Output<Json>)
    ensures r.fileOpened <==> Load(c, lines).Success?
    ensures Load(c, lines).Failure? ==> r == Output(false, [], Some(Load(c, lines).error))
    ensures Load(c, lines).Success? ==>
      var recs := Load(c, lines).value;
      && |r.written| <= |recs| && |r.written| <= |images|
      && (forall i :: 0 <= i < |r.written| ==> Row(c, chat, recs[i], images[i]) == Success(r.written[i]))
      && (r.failure.None? <==> |r.written| == |recs| || |r.written| == |images|)
      && (r.failure.Some? ==> Row(c, chat, recs[|r.written|], images[|r.written|]) == Failure(r.failure.value))
  {
    Extend(c, lines, images, (rec, image) => Row(c, chat, rec, image))
  }

  /** The request of a row carries the source image first and the decoded
      step image second. */
  lemma RowSendsSourceThenStep(c: Codec, chat: Chat, rec: Json, image: PyValue)
    requires Get(rec, "edit").Success? && Get(rec, "step_edited").Success?
    requires StepImage(Get(rec, "step_edited").value).Success? && ImageBytes(image).Some?
    ensures var step := StepImage(Get(rec, "step_edited").value).value;
      var m := CotGenerator.Request(PyBytes(step), image, TextOf(c, Get(rec, "edit").value));
      m.Success? && PartImages(m.value[1].parts) == [ImageBytes(image), Some(step)]
  {
    var step := StepImage(Get(rec, "step_edited").value).value;
    CotGenerator.RequestSendsSourceThenStep(PyBytes(step), image, TextOf(c, Get(rec, "edit").value));
  }
}

=== FILE: sample_codec.dfy ===
/** A codec that meets `Json.CodecAssumption`. Its text is not the `json`
    module's format but a prefix code over a few ASCII characters, chosen so
    that reading it back is easy to prove. Its float texts start with `~`,
    and a bare float text reads back as that float, the way Python reads a
    float's `repr` back. It shows that the assumption is consistent: the
    properties that take it as a precondition hold of at least one codec,
    and so are not vacuous. */
module SampleCodec {
  import opened Common
  import opened Text
  import opened Json

  // ---------------------------------------------------------------------
  // Writing.

  /** `n` in unary, closed by `;`. */
  function Unary(n: nat): (r: string)
    ensures |r| == n + 1 && '\n' !in r
  {
    if n == 0 then ";" else "1" + Unary(n - 1)
  }

  /** Each character as its code point in unary. */
  function Chars(s: string): (r: string)
    ensures '\n' !in r
  {
    if |s| == 0 then "" else Unary(s[0] as int) + Chars(s[1..])
  }

  /** A string: its length, then its characters. */
  function Str(s: string): (r: string)
    ensures '\n' !in r
  {
    Unary(|s|) + Chars(s)
  }

  /** An integer: its sign, then its magnitude. */
  function Int(i: int): (r: string)
    ensures '\n' !in r
  {
    if i < 0 then "-" + Unary(-i) else "+" + Unary(i)
  }

  /** A value: a one-letter tag, then its payload; a list or an object
      gives its length before its members. */
  function Enc(v: Json): (r: string)
    ensures |r| > 0 && '\n' !in r
    decreases v
  {
    match v
    case JNull => "n"
    case JBool(b) => if b then "t" else "f"
    case JInt(i) => "i" + Int(i)
    case JFloat(t) => "d" + Str(t)
    case JString(s) => "s" + Str(s)
    case JArray(items) => "a" + Unary(|items|) + Items(items)
    case JObject(fs) => "o" + Unary(|fs|) + Fields(fs)
  }

  function Items(items: seq<Json>): (r: string)
    ensures '\n' !in r
    decreases items
  {
    if |items| == 0 then "" else Enc(items[0]) + Items(items[1..])
  }

  function Fields(fs: seq<(string, Json)>): (r: string)
    ensures '\n' !in r
    decreases fs
  {
    if |fs| == 0 then ""
    else
      var f := fs[0];
      assert f in fs && f.1 < f;
      Str(f.0) + Enc(f.1) + Fields(fs[1..])
  }

  /** The codec's `dumps`: the value's code between angle brackets. */
  function Dumps(v: Json): (r: string)
    ensures CompactText(r)
  {
    var r := "<" + Enc(v) + ">";
    assert !IsSpace('<') && !IsSpace('>') by {
      assert forall k :: 0 <= k < |Whitespace| ==> Whitespace[k] != '<' && Whitespace[k] != '>';
    }
    r
  }

  // ---------------------------------------------------------------------
  // Reading: each parser returns what it read and the text after it.

  function ParseUnary(s: string): (r: Option<(nat, string)>)
    ensures r.Some? ==> |r.value.1| < |s|
  {
    if |s| == 0 then None
    else if s[0] == ';' then Some((0, s[1..]))
    else if s[0] == '1' then
      match ParseUnary(s[1..])
      case None => None
      case Some((n, rest)) => Some((n + 1, rest))
    else None
  }

  /** The numbers that are code points of a `char`. */
  predicate IsCharCode(n: nat) {
    n < 0xD800 || 0xE000 <= n < 0x11_0000
  }

  function ParseChars(n: nat, s: string): (r: Option<(string, string)>)
    ensures r.Some? ==> |r.value.1| <= |s|
  {
    if n == 0 then Some(([], s))
    else match ParseUnary(s)
      case None => None
      case Some((c, rest)) =>
        if !IsCharCode(c) then None
        else match ParseChars(n - 1, rest)
          case None => None
          case Some((cs, rest')) => Some(([c as char] + cs, rest'))
  }

  function ParseStr(s: string): (r: Option<(string, string)>)
    ensures r.Some? ==> |r.value.1| < |s|
  {
    match ParseUnary(s)
    case None => None
    case Some((n, rest)) => ParseChars(n, rest)
  }

  function ParseInt(s: string): (r: Option<(int, string)>)
    ensures r.Some? ==> |r.value.1| < |s|
  {
    if |s| == 0 || (s[0] != '+' && s[0] != '-') then None
    else match ParseUnary(s[1..])
      case None => None
      case Some((n, rest)) =>
        var m: int := n;
        var i := if s[0] == '-' then -m else m;
        Some((i, rest))
  }

  function ParseValue(s: string): (r: Option<(Json, string)>)
    ensures r.Some? ==> |r.value.1| < |s|
    decreases |s|, 0
  {
    if |s| == 0 then None
    else
      var rest := s[1..];
      match s[0]
      case 'n' => Some((JNull, rest))
      case 't' => Some((JBool(true), rest))
      case 'f' => Some((JBool(false), rest))
      case 'i' =>
        (match ParseInt(rest)
         case None => None
         case Some((i, r)) => Some((JInt(i), r)))
      case 'd' =>
        (match ParseStr(rest)
         case None => None
         case Some((t, r)) => Some((JFloat(t), r)))
      case 's' =>
        (match ParseStr(rest)
         case None => None
         case Some((t, r)) => Some((JString(t), r)))
      case 'a' =>
        (match ParseUnary(rest)
         case None => None
         case Some((n, r)) =>
           match ParseItems(n, r)
           case None => None
           case Some((items, r')) => Some((JArray(items), r')))
      case 'o' =>
        (match ParseUnary(rest)
         case None => None
         case Some((n, r)) =>
           match ParseFields(n, r)
           case None => None
           case Some((fs, r')) => Some((JObject(fs), r')))
      case _ => None
  }

  function ParseItems(n: nat, s: string): (r: Option<(seq<Json>, string)>)
    ensures r.Some? ==> |r.value.1| <= |s|
    decreases |s|, n + 1
  {
    if n == 0 then Some(([], s))
    else match ParseValue(s)
      case None => None
      case Some((v, rest)) =>
        match ParseItems(n - 1, rest)
        case None => None
        case Some((vs, rest')) => Some(([v] + vs, rest'))
  }

  function ParseFields(n: nat, s: string): (r: Option<(seq<(string, Json)>, string)>)
    ensures r.Some? ==> |r.value.1| <= |s|
    decreases |s|, n + 1
  {
    if n == 0 then Some(([], s))
    else match ParseStr(s)
      case None => None
      case Some((k, rest)) =>
        match ParseValue(rest)
        case None => None
        case Some((v, rest')) =>
          match ParseFields(n - 1, rest')
          case None => None
          case Some((fs, rest'')) => Some(([(k, v)] + fs, rest''))
  }

  /** The float texts of this codec, its counterpart of Python's `repr`:
      a `~` and then anything. */
  predicate FloatText(t: string) {
    |t| > 0 && t[0] == '~'
  }

  /** Every float in `v` is held as a float text. */
  predicate FloatsTagged(v: Json) {
    match v
    case JFloat(t) => FloatText(t)
    case JArray(items) => forall i :: 0 <= i < |items| ==> FloatsTagged(items[i])
    case JObject(fs) => forall i :: 0 <= i < |fs| ==> FloatsTagged(fs[i].1)
    case _ => true
  }

  /** The codec's `loads`: a bare float text reads as that float, as
      Python reads a `repr` back; otherwise a bracketed code with nothing
      after the value, and only values without repeated keys whose floats
      are float texts. */
  function Loads(t: string): (r: Option<Json>)
    ensures r.Some? ==> WellFormed(r.value) && FloatsTagged(r.value)
    ensures FloatText(t) ==> r == Some(JFloat(t))
  {
    if FloatText(t) then Some(JFloat(t))
    else if |t| < 2 || t[0] != '<' || t[|t| - 1] != '>' then None
    else match ParseValue(t[1..|t| - 1])
      case None => None
      case Some((v, rest)) => if |rest| == 0 && WellFormed(v) && FloatsTagged(v) then Some(v) else None
  }

  const Sample: Codec := Codec(Loads, Dumps)

  // ---------------------------------------------------------------------
  // Reading back what was written.

  lemma {:induction false} UnaryRoundTrip(n: nat, rest: string)
    ensures ParseUnary(Unary(n) + rest) == Some((n, rest))
  {
    var s := Unary(n) + rest;
    if n == 0 {
      assert s[1..] == rest;
    } else {
      assert s[1..] == Unary(n - 1) + rest;
      UnaryRoundTrip(n - 1, rest);
    }
  }

  lemma {:induction false} CharsRoundTrip(cs: string, rest: string)
    ensures ParseChars(|cs|, Chars(cs) + rest) == Some((cs, rest))
  {
    if |cs| > 0 {
      var c := cs[0] as int;
      var s := Chars(cs) + rest;
      assert s == Unary(c) + (Chars(cs[1..]) + rest);
      UnaryRoundTrip(c, Chars(cs[1..]) + rest);
      assert ParseUnary(s) == Some((c, Chars(cs[1..]) + rest));
      CharsRoundTrip(cs[1..], rest);
      assert IsCharCode(c) && c as char == cs[0];
      assert ParseChars(|cs| - 1, Chars(cs[1..]) + rest) == Some((cs[1..], rest));
      assert [cs[0]] + cs[1..] == cs;
      assert ParseChars(|cs|, s) == Some(([c as char] + cs[1..], rest));
    } else {
      assert Chars(cs) + rest == rest;
    }
  }

  lemma StrRoundTrip(s: string, rest: string)
    ensures ParseStr(Str(s) + rest) == Some((s, rest))
  {
    assert Str(s) + rest == Unary(|s|) + (Chars(s) + rest);
    UnaryRoundTrip(|s|, Chars(s) + rest);
    CharsRoundTrip(s, rest);
  }

  lemma IntRoundTrip(i: int, rest: string)
    ensures ParseInt(Int(i) + rest) == Some((i, rest))
  {
    if i < 0 {
      Tagged('-', Unary(-i), rest);
      UnaryRoundTrip(-i, rest);
    } else {
      Tagged('+', Unary(i), rest);
      UnaryRoundTrip(i, rest);
    }
  }

  /** The tag comes first, and the rest of the code follows it. */
  lemma Tagged(tag: char, body: string, rest: string)
    ensures var s := [tag] + body + rest; |s| > 0 && s[0] == tag && s[1..] == body + rest
  {
    var s := [tag] + body + rest;
    assert s[1..] == body + rest;
  }

  /** A value that holds no other value is read back from its code. */
  lemma ScalarRoundTrip(v: Json, rest: string)
    requires !v.JArray? && !v.JObject?
    ensures ParseValue(Enc(v) + rest) == Some((v, rest))
  {
    match v
    case JNull => Tagged('n', "", rest);
    case JBool(b) => if b { Tagged('t', "", rest); } else { Tagged('f', "", rest); }
    case JInt(i) =>
      Tagged('i', Int(i), rest);
      IntRoundTrip(i, rest);
    case JFloat(t) =>
      Tagged('d', Str(t), rest);
      StrRoundTrip(t, rest);
    case JString(t) =>
      Tagged('s', Str(t), rest);
      StrRoundTrip(t, rest);
  }

  /** The code of a list: its tag, then its length, then its members. */
  lemma ArrayCode(items: seq<Json>, rest: string)
    ensures var s := Enc(JArray(items)) + rest;
      && |s| > 0 && s[0] == 'a' && ParseUnary(s[1..]) == Some((|items|, Items(items) + rest))
  {
    var s := Enc(JArray(items)) + rest;
    assert s[1..] == Unary(|items|) + (Items(items) + rest);
    UnaryRoundTrip(|items|, Items(items) + rest);
  }

  /** The code of an object: its tag, then its length, then its fields. */
  lemma ObjectCode(fs: seq<(string, Json)>, rest: string)
    ensures var s := Enc(JObject(fs)) + rest;
      && |s| > 0 && s[0] == 'o' && ParseUnary(s[1..]) == Some((|fs|, Fields(fs) + rest))
  {
    var s := Enc(JObject(fs)) + rest;
    assert s[1..] == Unary(|fs|) + (Fields(fs) + rest);
    UnaryRoundTrip(|fs|, Fields(fs) + rest);
  }

  /** Reading a code that starts with the list tag. */
  lemma ParseArrayTag(s: string, n: nat, tail: string, items: seq<Json>, rest: string)
    requires |s| > 0 && s[0] == 'a' && ParseUnary(s[1..]) == Some((n, tail))
    requires ParseItems(n, tail) == Some((items, rest))
    ensures ParseValue(s) == Some((JArray(items), rest))
  {
  }

  /** Reading a code that starts with the object tag. */
  lemma ParseObjectTag(s: string, n: nat, tail: string, fs: seq<(string, Json)>, rest: string)
    requires |s| > 0 && s[0] == 'o' && ParseUnary(s[1..]) == Some((n, tail))
    requires ParseFields(n, tail) == Some((fs, rest))
    ensures ParseValue(s) == Some((JObject(fs), rest))
  {
  }

  /** A list is read back once its members are. */
  lemma ArrayRoundTrip(items: seq<Json>, rest: string)
    requires ParseItems(|items|, Items(items) + rest) == Some((items, rest))
    ensures ParseValue(Enc(JArray(items)) + rest) == Some((JArray(items), rest))
  {
    ArrayCode(items, rest);
    ParseArrayTag(Enc(JArray(items)) + rest, |items|, Items(items) + rest, items, rest);
  }

  /** An object is read back once its fields are. */
  lemma ObjectRoundTrip(fs: seq<(string, Json)>, rest: string)
    requires ParseFields(|fs|, Fields(fs) + rest) == Some((fs, rest))
    ensures ParseValue(Enc(JObject(fs)) + rest) == Some((JObject(fs), rest))
  {
    ObjectCode(fs, rest);
    ParseObjectTag(Enc(JObject(fs)) + rest, |fs|, Fields(fs) + rest, fs, rest);
  }

  lemma {:induction false} ValueRoundTrip(v: Json, rest: string)
    ensures ParseValue(Enc(v) + rest) == Some((v, rest))
    decreases v
  {
    match v
    case JArray(items) =>
      ItemsRoundTrip(items, rest);
      ArrayRoundTrip(items, rest);
    case JObject(fs) =>
      FieldsRoundTrip(fs, rest);
      ObjectRoundTrip(fs, rest);
    case _ =>
      ScalarRoundTrip(v, rest);
  }

  lemma {:induction false} ItemsRoundTrip(items: seq<Json>, rest: string)
    ensures ParseItems(|items|, Items(items) + rest) == Some((items, rest))
    decreases items
  {
    if |items| > 0 {
      assert Items(items) + rest == Enc(items[0]) + (Items(items[1..]) + rest);
      ValueRoundTrip(items[0], Items(items[1..]) + rest);
      ItemsRoundTrip(items[1..], rest);
      assert [items[0]] + items[1..] == items;
    } else {
      assert Items(items) + rest == rest;
    }
  }

  lemma {:induction false} FieldsRoundTrip(fs: seq<(string, Json)>, rest: string)
    ensures ParseFields(|fs|, Fields(fs) + rest) == Some((fs, rest))
    decreases fs
  {
    if |fs| > 0 {
      var tail := Fields(fs[1..]) + rest;
      assert Fields(fs) + rest == Str(fs[0].0) + (Enc(fs[0].1) + tail);
      StrRoundTrip(fs[0].0, Enc(fs[0].1) + tail);
      assert fs[0] in fs && fs[0].1 < fs[0];
      ValueRoundTrip(fs[0].1, tail);
      FieldsRoundTrip(fs[1..], rest);
      assert [(fs[0].0, fs[0].1)] + fs[1..] == fs;
    } else {
      assert Fields(fs) + rest == rest;
    }
  }

  /** Under this codec a value is readable exactly when it is well-formed
      and its floats are float texts. */
  lemma {:induction false} FloatsReadTagged(v: Json)
    ensures FloatsRead(Sample, v) <==> FloatsTagged(v)
    decreases v
  {
    match v
    case JFloat(t) =>
    case JArray(items) =>
      forall i | 0 <= i < |items| ensures FloatsRead(Sample, items[i]) <==> FloatsTagged(items[i]) {
        FloatsReadTagged(items[i]);
      }
    case JObject(fs) =>
      forall i | 0 <= i < |fs| ensures FloatsRead(Sample, fs[i].1) <==> FloatsTagged(fs[i].1) {
        assert fs[i] in fs && fs[i].1 < fs[i];
        FloatsReadTagged(fs[i].1);
      }
    case _ =>
  }

  /** `loads` reads back every value `dumps` writes, when it is well-formed
      and its floats are float texts. */
  lemma LoadsDumps(v: Json)
    requires WellFormed(v) && FloatsTagged(v)
    ensures Loads(Dumps(v)) == Some(v)
  {
    var t := Dumps(v);
    assert t[1..|t| - 1] == Enc(v) + "";
    ValueRoundTrip(v, "");
  }

  /** The sample codec meets the codec assumption, and it does not read
      the reply `oops` as JSON, so the stage-1 example with that reply
      applies to it. */
  lemma SampleMeetsAssumption()
    ensures CodecAssumption(Sample)
    ensures Sample.loads("oops") == None
    ensures Readable(Sample, JArray([JFloat("~1.0"), JInt(-3)]))
  {
    FloatsReadTagged(JArray([JFloat("~1.0"), JInt(-3)]));
    forall v | Readable(Sample, v)
      ensures CompactText(Sample.dumps(v)) && Sample.loads(Sample.dumps(v)) == Some(v)
    {
      FloatsReadTagged(v);
      LoadsDumps(v);
    }
    forall t | Sample.loads(t).Some? ensures Readable(Sample, Sample.loads(t).value) {
      FloatsReadTagged(Sample.loads(t).value);
    }
  }
}

=== FILE: shards.dfy ===
/** Shard discovery: the hidden-file filter, the `train-<digits>-` index a
    shard file name carries (as an int for ordering and as a string for the
    output file name), and the stable sort by that index. The same helpers
    appear, unchanged, in all four stage drivers. */
module Shards {
  import opened Common
  import opened Text

  /** `os.path.basename` on POSIX paths: everything after the last `/`. */
  function Basename(p: string): (r: string)
    ensures '/' !in r
    ensures |r| <= |p| && r == p[|p| - |r|..]
    ensures |r| < |p| ==> p[|p| - |r| - 1] == '/'
    decreases |p|
  {
    if |p| == 0 || p[|p| - 1] == '/' then ""
    else Basename(p[..|p| - 1]) + [p[|p| - 1]]
  }

  /** Appending a character other than `/` extends the basename by it. */
  lemma BasenameSnoc(q: string, c: char)
    requires c != '/'
    ensures Basename(q + [c]) == Basename(q) + [c]
  {
    var p := q + [c];
    assert p[..|p| - 1] == q;
  }

  /** The basename of a path ending in a slash-free name, after a directory
      part that is empty or ends in `/`, is that name. */
  lemma {:induction false} BasenameOf(dir: string, name: string)
    requires '/' !in name
    requires |dir| == 0 || dir[|dir| - 1] == '/'
    ensures Basename(dir + name) == name
    decreases |name|
  {
    if |name| > 0 {
      var init, last := name[..|name| - 1], name[|name| - 1];
      assert name == init + [last];
      assert dir + name == (dir + init) + [last];
      BasenameOf(dir, init);
      BasenameSnoc(dir + init, last);
    } else {
      assert dir + name == dir;
    }
  }

  /** Sidecar files such as macOS `._train-00001-....parquet` are skipped. */
  const HiddenPrefix := "._"

  predicate IsHidden(p: string) {
    StartsWith(Basename(p), HiddenPrefix)
  }

  predicate IsVisible(p: string) {
    !IsHidden(p)
  }

  /** The elements of `s` that satisfy `keep`, in their original order. */
  function Where<T(!new)>(s: seq<T>, keep: T -> bool): (r: seq<T>)
    ensures |r| <= |s|
    ensures forall x :: x in r <==> x in s && keep(x)
    ensures forall i :: 0 <= i < |r| ==> keep(r[i])
    decreases |s|
  {
    if |s| == 0 then []
    else
      var rest := Where(s[1..], keep);
      assert forall x :: x in s <==> x == s[0] || x in s[1..];
      if keep(s[0]) then [s[0]] + rest else rest
  }

  /** The paths that survive the hidden-file filter, in their original order. */
  function Visible(paths: seq<string>): (r: seq<string>)
    ensures forall p :: p in r <==> p in paths && !IsHidden(p)
  {
    Where(paths, IsVisible)
  }

  /** The only characters `\d` matches in this model: ASCII digits. */
  predicate IsDigit(c: char) {
    '0' <= c <= '9'
  }

  predicate AllDigits(s: string) {
    forall i :: 0 <= i < |s| ==> IsDigit(s[i])
  }

  /** The length of the longest run of digits starting at index `k`. */
  function DigitRun(s: string, k: nat): (n: nat)
    requires k <= |s|
    ensures k + n <= |s|
    ensures forall j :: k <= j < k + n ==> IsDigit(s[j])
    ensures k + n < |s| ==> !IsDigit(s[k + n])
    decreases |s| - k
  {
    if k < |s| && IsDigit(s[k]) then 1 + DigitRun(s, k + 1) else 0
  }

  /** A run of `m` digits followed by a non-digit is the longest run. */
  lemma {:induction false} DigitRunExact(s: string, k: nat, m: nat)
    requires k + m < |s|
    requires forall j :: k <= j < k + m ==> IsDigit(s[j])
    requires !IsDigit(s[k + m])
    ensures DigitRun(s, k) == m
    decreases m
  {
    if m > 0 {
      DigitRunExact(s, k + 1, m - 1);
    }
  }

  /** The literal that opens the pattern `train-(\d+)-`. */
  const Token := "train-"

  /** What the regular expression `train-(\d+)-` means at position `i`:
      the token, then a non-empty group of digits `d`, then `-`. Backtracking
      may try any digit group, so this is stated for every `d`. */
  ghost predicate PatternAt(b: string, i: int, d: string) {
    && OccursAt(b, Token, i)
    && |d| > 0 && AllDigits(d)
    && OccursAt(b, d + "-", i + |Token|)
  }

  /** The match attempt at position `i`: the greedy digit run, which must be
      followed by `-`. */
  function MatchAt(b: string, i: nat): (r: Option<string>)
    requires i <= |b|
  {
    if OccursAt(b, Token, i) then
      var start := i + |Token|;
      var n := DigitRun(b, start);
      if n > 0 && start + n < |b| && b[start + n] == '-' then Some(b[start..start + n]) else None
    else None
  }

  /** The greedy attempt finds a group exactly when the regular expression
      matches, and the group it finds is the only one that can match. */
  lemma MatchAtPattern(b: string, i: nat, d: string)
    requires i <= |b|
    ensures MatchAt(b, i) == Some(d) <==> PatternAt(b, i, d)
  {
    var start := i + |Token|;
    if PatternAt(b, i, d) {
      var n := DigitRun(b, start);
      assert b[start..start + |d| + 1] == d + "-";
      forall j | 0 <= j < |d| ensures b[start + j] == d[j] {
        assert b[start..start + |d| + 1][j] == (d + "-")[j];
      }
      assert b[start + |d|] == b[start..start + |d| + 1][|d|];
      DigitRunExact(b, start, |d|);
      assert b[start..start + n] == d;
    }
    if MatchAt(b, i) == Some(d) {
      var n := |d|;
      assert b[start..start + n + 1] == d + "-";
    }
  }

  /** `re.search`: the leftmost position at or after `k` where the pattern
      matches, with the digit group found there. */
  function SearchFrom(b: string, k: nat): (r: Option<(nat, string)>)
    requires k <= |b|
    ensures r.Some? ==> k <= r.value.0 <= |b| && MatchAt(b, r.value.0) == Some(r.value.1)
    ensures forall j :: k <= j <= |b| && (r.None? || j < r.value.0) ==> MatchAt(b, j).None?
    decreases |b| - k
  {
    match MatchAt(b, k)
    case Some(d) => Some((k, d))
    case None => if k == |b| then None else SearchFrom(b, k + 1)
  }

  /** Where `re.search(r'train-(\d+)-', basename)` matches, and its group. */
  function IndexMatch(p: string): (r: Option<(nat, string)>)
    ensures r.Some? ==> r.value.0 <= |Basename(p)| && PatternAt(Basename(p), r.value.0, r.value.1)
    ensures r.Some? ==> forall j :: 0 <= j < r.value.0 ==> MatchAt(Basename(p), j).None?
    ensures r.None? <==> forall j :: 0 <= j <= |Basename(p)| ==> MatchAt(Basename(p), j).None?
  {
    var b := Basename(p);
    match SearchFrom(b, 0)
    case None => None
    case Some((i, d)) =>
      MatchAtPattern(b, i, d);
      Some((i, d))
  }

  /** The pattern matches at `i` with group `d`, and at no earlier position. */
  ghost predicate LeftmostAt(b: string, i: int, d: string) {
    PatternAt(b, i, d) && forall j, e :: 0 <= j < i ==> !PatternAt(b, j, e)
  }

  /** The search result is exactly the leftmost match of the pattern. */
  lemma IndexMatchLeftmost(p: string, i: nat, d: string)
    ensures IndexMatch(p) == Some((i, d)) <==> LeftmostAt(Basename(p), i, d)
  {
    var b := Basename(p);
    var r := SearchFrom(b, 0);
    assert IndexMatch(p) == r;
    if r == Some((i, d)) {
      forall j, e | 0 <= j < i ensures !PatternAt(b, j, e) {
        MatchAtPattern(b, j, e);
      }
    }
    if LeftmostAt(b, i, d) {
      MatchAtPattern(b, i, d);
      var (k, e) := r.value;
      MatchAtPattern(b, k, e);
      assert k == i;
    }
  }

  /** When the search finds nothing, the pattern matches nowhere. */
  lemma NoIndexNoPattern(p: string, j: int, e: string)
    requires IndexMatch(p).None?
    ensures !PatternAt(Basename(p), j, e)
  {
    var b := Basename(p);
    assert SearchFrom(b, 0).None?;
    if 0 <= j <= |b| {
      MatchAtPattern(b, j, e);
    }
  }

  /** The digit group of the leftmost `train-<digits>-` in the basename. */
  function IndexDigits(p: string): (r: Option<string>)
    ensures r.Some? ==> |r.value| > 0 && AllDigits(r.value)
    ensures r.None? <==> IndexMatch(p).None?
    ensures r.Some? ==> r.value == IndexMatch(p).value.1
  {
    match IndexMatch(p)
    case None => None
    case Some((_, d)) => Some(d)
  }

  /** The decimal value of a string of digits, as `int(...)` reads it. */
  function DigitsValue(d: string): (v: nat)
    requires AllDigits(d)
    decreases |d|
  {
    if |d| == 0 then 0
    else DigitsValue(d[..|d| - 1]) * 10 + (d[|d| - 1] as int - '0' as int)
  }

  /** Leading zeros do not change the value: `train-0012-` and `train-12-`
      get the same ordering key but different output names. */
  lemma {:induction false} LeadingZero(d: string)
    requires AllDigits(d)
    ensures AllDigits("0" + d) && DigitsValue("0" + d) == DigitsValue(d)
    decreases |d|
  {
    var z := "0" + d;
    if |d| > 0 {
      var init := d[..|d| - 1];
      assert z[..|z| - 1] == "0" + init;
      LeadingZero(init);
    } else {
      assert z[..0] == "";
    }
  }

  /** `extract_index_number_int`: the group's value, or -1 without a match. */
  function IndexInt(p: string): (r: int)
    ensures r >= -1
    ensures r == -1 <==> IndexDigits(p).None?
    ensures IndexDigits(p).Some? ==> r == DigitsValue(IndexDigits(p).value)
  {
    match IndexDigits(p)
    case None => -1
    case Some(d) => DigitsValue(d)
  }

  /** `extract_index_number_str`, as it ends up in the output file name
      `f"{...}.jsonal"`: the group with its leading zeros, or the sentinel
      `-1` printed as text. */
  function IndexTag(p: string): (r: string)
    ensures IndexDigits(p).Some? ==> r == IndexDigits(p).value
    ensures IndexDigits(p).None? ==> r == "-1"
  {
    match IndexDigits(p)
    case None => "-1"
    case Some(d) => d
  }

  /** The two keys agree: a tag made of digits is the text of the int key
      (up to leading zeros), and the sentinel tag goes with the sentinel key. */
  lemma TagAndKeyAgree(p: string)
    ensures AllDigits(IndexTag(p)) ==> IndexInt(p) == DigitsValue(IndexTag(p))
    ensures !AllDigits(IndexTag(p)) <==> IndexInt(p) == -1
  {
    if IndexDigits(p).None? {
      assert !IsDigit(IndexTag(p)[0]);
    }
  }

  /** The output file of a shard: `<dir>/<tag>.jsonal`. */
  function OutputName(dir: string, p: string): (r: string)
    ensures StartsWith(r, dir + "/")
    ensures '/' !in r[|dir| + 1..]
  {
    TagHasNoSlash(p);
    NameShape(dir, IndexTag(p));
    dir + "/" + IndexTag(p) + ".jsonal"
  }

  /** A file name built from a tag without `/` lies directly in `dir`. */
  lemma NameShape(dir: string, tag: string)
    requires '/' !in tag
    ensures var r := dir + "/" + tag + ".jsonal";
      StartsWith(r, dir + "/") && '/' !in r[|dir| + 1..]
  {
    var r := dir + "/" + tag + ".jsonal";
    assert r == dir + "/" + (tag + ".jsonal");
    StartsWithAppend(dir + "/", tag + ".jsonal");
    assert r[|dir| + 1..] == tag + ".jsonal";
  }

  /** A tag is digits or `-1`; neither holds a path separator. */
  lemma TagHasNoSlash(p: string)
    ensures '/' !in IndexTag(p)
  {
    if IndexDigits(p).Some? {
      var d := IndexTag(p);
      forall k | 0 <= k < |d| ensures d[k] != '/' {
        assert IsDigit(d[k]);
      }
    }
  }

  /** Two shards share an output file exactly when they share a tag. */
  lemma OutputNameInjective(dir: string, p: string, q: string)
    ensures OutputName(dir, p) == OutputName(dir, q) <==> IndexTag(p) == IndexTag(q)
  {
    var tp, tq := IndexTag(p), IndexTag(q);
    assert OutputName(dir, p) == dir + "/" + tp + ".jsonal";
    assert OutputName(dir, q) == dir + "/" + tq + ".jsonal";
    if OutputName(dir, p) == OutputName(dir, q) {
      MiddleEqual(dir + "/", tp, tq, ".jsonal");
    }
  }

  /** Equal strings with the same prefix and suffix have the same middle. */
  lemma MiddleEqual(pre: string, x: string, y: string, suf: string)
    requires pre + x + suf == pre + y + suf
    ensures x == y
  {
    var s := pre + x + suf;
    assert |x| == |y|;
    assert x == s[|pre|..|pre| + |x|];
    assert y == (pre + y + suf)[|pre|..|pre| + |y|];
  }

  /** Every shard without an index writes to the same output file, so a
      later one overwrites an earlier one. */
  lemma UnindexedShardsCollide(dir: string, p: string, q: string)
    requires IndexInt(p) == -1 && IndexInt(q) == -1
    ensures IndexTag(p) == IndexTag(q) == "-1"
    ensures OutputName(dir, p) == OutputName(dir, q)
  {
    assert IndexDigits(p).None? && IndexDigits(q).None?;
  }

  // ---------------------------------------------------------------------
  // Stable sort by an integer key (`list.sort(key=...)`).

  predicate SortedBy<T>(s: seq<T>, key: T -> int) {
    forall i, j :: 0 <= i < j < |s| ==> key(s[i]) <= key(s[j])
  }

  /** The elements with key `k`, in the order they appear. A sort is stable
      when it keeps this subsequence for every key. */
  function Ties<T>(s: seq<T>, key: T -> int, k: int): (r: seq<T>)
    ensures |r| <= |s|
    decreases |s|
  {
    if |s| == 0 then []
    else (if key(s[0]) == k then [s[0]] else []) + Ties(s[1..], key, k)
  }

  lemma TiesCons<T>(x: T, s: seq<T>, key: T -> int, k: int)
    ensures Ties([x] + s, key, k) == (if key(x) == k then [x] else []) + Ties(s, key, k)
  {
    assert ([x] + s)[1..] == s;
  }

  /** Insert `x` in front of the first element whose key is not smaller, so
      that it precedes every element of equal key. */
  function Insert<T>(x: T, s: seq<T>, key: T -> int): (r: seq<T>)
    requires SortedBy(s, key)
    ensures |r| == |s| + 1
    ensures r[0] == x || (|s| > 0 && r[0] == s[0])
    ensures SortedBy(r, key)
    ensures multiset(r) == multiset(s) + multiset{x}
    decreases |s|
  {
    if |s| == 0 || key(x) <= key(s[0]) then
      SortedCons(x, s, key);
      [x] + s
    else
      assert s == [s[0]] + s[1..];
      var t := Insert(x, s[1..], key);
      SortedCons(s[0], t, key);
      [s[0]] + t
  }

  /** A sorted sequence stays sorted when an element no larger than its
      first one is put in front. */
  lemma SortedCons<T>(y: T, t: seq<T>, key: T -> int)
    requires SortedBy(t, key) && (|t| == 0 || key(y) <= key(t[0]))
    ensures SortedBy([y] + t, key)
  {
    var r := [y] + t;
    forall i, j | 0 <= i < j < |r| ensures key(r[i]) <= key(r[j]) {
      if i > 0 {
        assert r[i] == t[i - 1] && r[j] == t[j - 1];
      } else {
        assert r[j] == t[j - 1];
        assert key(t[0]) <= key(t[j - 1]);
      }
    }
  }

  /** Inserting `x` adds it in front of the elements of equal key and leaves
      every other key's elements alone. */
  lemma {:induction false} InsertTies<T>(x: T, s: seq<T>, key: T -> int, k: int)
    requires SortedBy(s, key)
    ensures Ties(Insert(x, s, key), key, k) == (if key(x) == k then [x] else []) + Ties(s, key, k)
    decreases |s|
  {
    if |s| == 0 || key(x) <= key(s[0]) {
      TiesCons(x, s, key, k);
    } else {
      var t := Insert(x, s[1..], key);
      InsertTies(x, s[1..], key, k);
      TiesCons(s[0], t, key, k);
      assert s == [s[0]] + s[1..];
      TiesCons(s[0], s[1..], key, k);
    }
  }

  /** A stable insertion sort: sorted by the key, a permutation of the input,
      and elements of equal key keep their relative order. */
  function SortBy<T>(s: seq<T>, key: T -> int): (r: seq<T>)
    ensures |r| == |s|
    ensures SortedBy(r, key)
    ensures multiset(r) == multiset(s)
    ensures forall k :: Ties(r, key, k) == Ties(s, key, k)
    decreases |s|
  {
    if |s| == 0 then []
    else
      var t := SortBy(s[1..], key);
      var r := Insert(s[0], t, key);
      assert s == [s[0]] + s[1..];
      forall k ensures Ties(r, key, k) == Ties(s, key, k) {
        InsertTies(s[0], t, key, k);
        TiesCons(s[0], s[1..], key, k);
      }
      r
  }

  /** The shards a stage processes, in processing order: visible paths,
      stably sorted by their int key. */
  function Discover(paths: seq<string>): (r: seq<string>)
    ensures forall p :: p in r <==> p in paths && !IsHidden(p)
    ensures multiset(r) == multiset(Visible(paths))
    ensures SortedBy(r, IndexInt)
    ensures forall k :: Ties(r, IndexInt, k) == Ties(Visible(paths), IndexInt, k)
  {
    var v := Visible(paths);
    var r := SortBy(v, IndexInt);
    assert forall p :: p in r <==> p in multiset(r);
    assert forall p :: p in v <==> p in multiset(v);
    r
  }

  /** Shards without an index (key -1) come before every indexed shard. */
  lemma UnindexedFirst(paths: seq<string>, i: int, j: int)
    requires 0 <= i < j < |Discover(paths)|
    requires IndexInt(Discover(paths)[j]) == -1
    ensures IndexInt(Discover(paths)[i]) == -1
  {
  }

  /** A shard named `train-<digits>-<rest>` in some directory has index
      `<digits>`. */
  lemma IndexOfShardName(dir: string, digits: string, rest: string)
    requires |dir| > 0 && dir[|dir| - 1] == '/'
    requires |digits| > 0 && AllDigits(digits) && '/' !in rest
    ensures IndexDigits(dir + Token + digits + "-" + rest) == Some(digits)
  {
    var name := Token + digits + "-" + rest;
    var p := dir + name;
    assert p == dir + Token + digits + "-" + rest;
    ShardNameHasNoSlash(digits, rest);
    BasenameOf(dir, name);
    assert name[..|Token|] == Token;
    assert name[|Token|..|Token| + |digits| + 1] == digits + "-";
    assert PatternAt(name, 0, digits);
    assert LeftmostAt(name, 0, digits);
    IndexMatchLeftmost(p, 0, digits);
  }

  lemma ValueExamples()
    ensures DigitsValue("00000") == 0
    ensures DigitsValue("00002") == 2
    ensures DigitsValue("00010") == 10
  {
    assert "00000"[..4] == "0000" && "0000"[..3] == "000" && "000"[..2] == "00" && "00"[..1] == "0";
    assert "0"[..0] == "";
    assert "00002"[..4] == "0000";
    assert "00010"[..4] == "0001" && "0001"[..3] == "000";
  }

  /** Whether a path in a directory is hidden depends on its name alone. */
  lemma HiddenByName(dir: string, name: string)
    requires |dir| > 0 && dir[|dir| - 1] == '/' && '/' !in name
    ensures IsHidden(dir + name) <==> StartsWith(name, HiddenPrefix)
  {
    BasenameOf(dir, name);
  }

  lemma WhereCons<T(!new)>(x: T, rest: seq<T>, keep: T -> bool)
    ensures Where([x] + rest, keep) == if keep(x) then [x] + Where(rest, keep) else Where(rest, keep)
  {
    assert ([x] + rest)[1..] == rest;
  }

  /** Filtering distributes over concatenation, so the survivors keep the
      order they had: whatever came before an element still comes before it. */
  lemma {:induction false} WhereAppend<T(!new)>(a: seq<T>, b: seq<T>, keep: T -> bool)
    ensures Where(a + b, keep) == Where(a, keep) + Where(b, keep)
    decreases |a|
  {
    if |a| > 0 {
      var x, t := a[0], a[1..];
      assert a == [x] + t;
      assert a + b == [x] + (t + b);
      WhereCons(x, t + b, keep);
      WhereCons(x, t, keep);
      WhereAppend(t, b, keep);
      if keep(x) {
        assert Where(a + b, keep) == [x] + (Where(t, keep) + Where(b, keep));
      }
    } else {
      assert a + b == b;
    }
  }

  lemma WhereFour<T(!new)>(a: T, h: T, b: T, c: T, keep: T -> bool)
    requires !keep(h) && keep(a) && keep(b) && keep(c)
    ensures Where([a, h, b, c], keep) == [a, b, c]
  {
    var s := [a, h, b, c];
    assert s[1..] == [h, b, c] && s[1..][1..] == [b, c] && s[1..][1..][1..] == [c];
    var w3 := Where([c], keep);
    assert [c][1..] == [];
    assert w3 == [c];
    var w2 := Where([b, c], keep);
    assert w2 == [b] + w3;
    var w1 := Where([h, b, c], keep);
    assert w1 == w2;
    assert Where(s, keep) == [a] + w1;
  }

  lemma SortCons<T>(x: T, rest: seq<T>, key: T -> int)
    ensures SortBy([x] + rest, key) == Insert(x, SortBy(rest, key), key)
  {
    assert ([x] + rest)[1..] == rest;
  }

  lemma SortTwo<T>(b: T, c: T, key: T -> int)
    requires key(b) < key(c)
    ensures SortBy([b, c], key) == [b, c]
  {
    assert [c] == [c] + [];
    SortCons(c, [], key);
    assert [b, c] == [b] + [c];
    SortCons(b, [c], key);
  }

  lemma SortThree<T>(a: T, b: T, c: T, key: T -> int)
    requires key(b) < key(a) < key(c)
    ensures SortBy([a, b, c], key) == [b, a, c]
  {
    SortTwo(b, c, key);
    var s := [a, b, c];
    assert s[1..] == [b, c];
    assert SortBy(s, key) == Insert(a, [b, c], key);
    assert [b, c][1..] == [c];
    assert Insert(a, [c], key) == [a] + [c];
    assert Insert(a, [b, c], key) == [b] + [a, c];
  }

  /** A typical shard file name in directory `dir`. */
  function ShardPath(dir: string, digits: string): string {
    dir + Token + digits + "-" + "x.parquet"
  }

  lemma ShardNameHasNoSlash(digits: string, rest: string)
    requires AllDigits(digits) && '/' !in rest
    ensures '/' !in Token + digits + "-" + rest
  {
    var name := Token + digits + "-" + rest;
    forall k | 0 <= k < |name| ensures name[k] != '/' {
      if |Token| <= k < |Token| + |digits| {
        assert name[k] == digits[k - |Token|];
        assert IsDigit(digits[k - |Token|]);
      } else if k >= |Token| + |digits| + 1 {
        assert name[k] == rest[k - |Token| - |digits| - 1];
      }
    }
  }

  lemma ShardPathVisible(dir: string, digits: string)
    requires |dir| > 0 && dir[|dir| - 1] == '/'
    requires AllDigits(digits)
    ensures IsVisible(ShardPath(dir, digits))
  {
    var name := Token + digits + "-" + "x.parquet";
    assert ShardPath(dir, digits) == dir + name;
    ShardNameHasNoSlash(digits, "x.parquet");
    HiddenByName(dir, name);
    assert name[..2][0] == 't';
  }

  lemma ShardPathIndex(dir: string, digits: string)
    requires |dir| > 0 && dir[|dir| - 1] == '/'
    requires |digits| > 0 && AllDigits(digits)
    ensures IndexInt(ShardPath(dir, digits)) == DigitsValue(digits)
    ensures IndexTag(ShardPath(dir, digits)) == digits
  {
    IndexOfShardName(dir, digits, "x.parquet");
  }

  /** The example shards' file names carry their tags verbatim, leading
      zeros included. */
  lemma ExampleTags(dir: string)
    requires |dir| > 0 && dir[|dir| - 1] == '/'
    ensures IndexTag(ShardPath(dir, "00000")) == "00000"
    ensures IndexTag(ShardPath(dir, "00002")) == "00002"
    ensures IndexTag(ShardPath(dir, "00010")) == "00010"
  {
    assert AllDigits("00002") && AllDigits("00000") && AllDigits("00010");
    ShardPathIndex(dir, "00000");
    ShardPathIndex(dir, "00002");
    ShardPathIndex(dir, "00010");
  }

  /** The example shards are written to `00000.jsonal`, `00002.jsonal` and
      `00010.jsonal` in the output directory. */
  lemma ExampleOutputNames(dir: string, outDir: string)
    requires |dir| > 0 && dir[|dir| - 1] == '/'
    ensures OutputName(outDir, ShardPath(dir, "00000")) == outDir + "/" + "00000" + ".jsonal"
    ensures OutputName(outDir, ShardPath(dir, "00002")) == outDir + "/" + "00002" + ".jsonal"
    ensures OutputName(outDir, ShardPath(dir, "00010")) == outDir + "/" + "00010" + ".jsonal"
  {
    ExampleTags(dir);
  }

  /** Shards `train-00002-x`, `train-00000-x` and `train-00010-x` (with a
      hidden sidecar among them) are processed in the order 00000, 00002,
      00010. */
  lemma DiscoverExample(dir: string)
    requires |dir| > 0 && dir[|dir| - 1] == '/'
    ensures Discover([ShardPath(dir, "00002"), dir + "._train-00001-x.parquet",
                      ShardPath(dir, "00000"), ShardPath(dir, "00010")])
         == [ShardPath(dir, "00000"), ShardPath(dir, "00002"), ShardPath(dir, "00010")]
  {
    var a, h, b, c := ShardPath(dir, "00002"), dir + "._train-00001-x.parquet",
                      ShardPath(dir, "00000"), ShardPath(dir, "00010");
    assert !IsVisible(h) by {
      HiddenByName(dir, "._train-00001-x.parquet");
    }
    assert IndexInt(a) == 2 && IndexInt(b) == 0 && IndexInt(c) == 10 && IsVisible(a) && IsVisible(b) && IsVisible(c) by {
      assert AllDigits("00002") && AllDigits("00000") && AllDigits("00010");
      ShardPathVisible(dir, "00002");
      ShardPathVisible(dir, "00000");
      ShardPathVisible(dir, "00010");
      ShardPathIndex(dir, "00002");
      ShardPathIndex(dir, "00000");
      ShardPathIndex(dir, "00010");
      ValueExamples();
    }
    WhereFour(a, h, b, c, IsVisible);
    SortThree(a, b, c, IndexInt);
  }
}

=== FILE: text.dfy ===
/** The few Python `str` operations the pipeline relies on: `strip`,
    `startswith`, `find` and `replace(old, new, 1)`, on `seq<char>`. */
module Text {
  import opened Common

  /** The characters Python's `str.isspace()` accepts; `str.strip()` with no
      argument removes exactly these from both ends. */
  const Whitespace: string :=
    " \t\n\r\U{B}\U{C}\U{1C}\U{1D}\U{1E}\U{1F}\U{85}\U{A0}\U{1680}"
    + "\U{2000}\U{2001}\U{2002}\U{2003}\U{2004}\U{2005}\U{2006}\U{2007}\U{2008}\U{2009}\U{200A}"
    + "\U{2028}\U{2029}\U{202F}\U{205F}\U{3000}"

  predicate IsSpace(c: char) {
    c in Whitespace
  }

  predicate StartsWith(s: string, prefix: string) {
    |prefix| <= |s| && s[..|prefix|] == prefix
  }

  lemma StartsWithAppend(prefix: string, rest: string)
    ensures StartsWith(prefix + rest, prefix)
  {
    assert (prefix + rest)[..|prefix|] == prefix;
  }

  /** Every character of `s` is one of `chars`. */
  predicate AllIn(s: string, chars: string) {
    forall i :: 0 <= i < |s| ==> s[i] in chars
  }

  /** Python's `s.lstrip(chars)`: drop the longest prefix made of `chars`. */
  function TrimStart(s: string, chars: string): (r: string)
    ensures |r| <= |s| && r == s[|s| - |r|..]
    ensures AllIn(s[..|s| - |r|], chars)
    ensures |r| > 0 ==> r[0] !in chars
    decreases |s|
  {
    if |s| > 0 && s[0] in chars then TrimStart(s[1..], chars) else s
  }

  /** Python's `s.rstrip(chars)`: drop the longest suffix made of `chars`. */
  function TrimEnd(s: string, chars: string): (r: string)
    ensures |r| <= |s| && r == s[..|r|]
    ensures AllIn(s[|r|..], chars)
    ensures |r| > 0 ==> r[|r| - 1] !in chars
    decreases |s|
  {
    if |s| > 0 && s[|s| - 1] in chars then TrimEnd(s[..|s| - 1], chars) else s
  }

  /** Python's `s.strip(chars)`. */
  function StripChars(s: string, chars: string): (r: string)
    ensures |r| <= |s|
    ensures |r| > 0 ==> r[0] !in chars && r[|r| - 1] !in chars
    ensures r == [] <==> AllIn(s, chars)
  {
    var t := TrimStart(s, chars);
    assert s[..|s|] == s;
    TrimEnd(t, chars)
  }

  /** Python's `s.strip()` with no argument. */
  function Strip(s: string): string {
    StripChars(s, Whitespace)
  }

  lemma TrimStartAt(s: string, chars: string, a: nat)
    requires a < |s| && AllIn(s[..a], chars) && s[a] !in chars
    ensures TrimStart(s, chars) == s[a..]
    decreases a
  {
    if a > 0 {
      assert s[..a][0] == s[0];
      assert s[1..][..a - 1] == s[1..a];
      forall i | 0 <= i < a - 1 ensures s[1..a][i] in chars {
        assert s[1..a][i] == s[..a][i + 1];
      }
      TrimStartAt(s[1..], chars, a - 1);
      assert s[1..][a - 1..] == s[a..];
    }
  }

  lemma TrimEndAt(s: string, chars: string, b: nat)
    requires 0 < b <= |s| && AllIn(s[b..], chars) && s[b - 1] !in chars
    ensures TrimEnd(s, chars) == s[..b]
    decreases |s| - b
  {
    if b < |s| {
      assert s[b..][|s| - 1 - b] == s[|s| - 1];
      var s' := s[..|s| - 1];
      forall i | 0 <= i < |s'| - b ensures s'[b..][i] in chars {
        assert s'[b..][i] == s[b..][i];
      }
      TrimEndAt(s', chars, b);
      assert s'[..b] == s[..b];
    }
  }

  /** Strip is characterised by where the kept slice starts and ends: any
      slice `s[a..b]` with only `chars` outside it and no member of `chars`
      at either of its ends is what `strip` returns. */
  lemma StripCharsUnique(s: string, chars: string, a: int, b: int)
    requires 0 <= a < b <= |s|
    requires AllIn(s[..a], chars) && AllIn(s[b..], chars)
    requires s[a] !in chars && s[b - 1] !in chars
    ensures StripChars(s, chars) == s[a..b]
  {
    assert TrimStart(s, chars) == s[a..] by {
      TrimStartAt(s, chars, a);
    }
    TrimEndOfSuffix(s, chars, a, b);
  }

  lemma TrimEndOfSuffix(s: string, chars: string, a: int, b: int)
    requires 0 <= a < b <= |s|
    requires AllIn(s[b..], chars) && s[b - 1] !in chars
    ensures TrimEnd(s[a..], chars) == s[a..b]
  {
    var t := s[a..];
    assert t[b - a..] == s[b..];
    assert t[b - a - 1] == s[b - 1];
    TrimEndAt(t, chars, b - a);
    assert t[..b - a] == s[a..b];
  }

  /** A string whose ends are not in `chars` is left alone by `strip`. */
  lemma StripCharsKeeps(s: string, chars: string)
    requires |s| > 0 && s[0] !in chars && s[|s| - 1] !in chars
    ensures StripChars(s, chars) == s
  {
    assert s[..0] == [] && s[|s|..] == [];
    StripCharsUnique(s, chars, 0, |s|);
    assert s[0..|s|] == s;
  }

  /** `pat` occurs in `s` starting at index `i`. */
  predicate OccursAt(s: string, pat: string, i: int) {
    0 <= i && i + |pat| <= |s| && s[i..i + |pat|] == pat
  }

  /** The index of the leftmost occurrence of `pat` at or after `k`, as
      Python's `s.find(pat, k)` (which returns -1 where this returns None). */
  function FindFrom(s: string, pat: string, k: nat): (r: Option<nat>)
    ensures r.Some? ==> k <= r.value && OccursAt(s, pat, r.value)
    ensures forall j :: k <= j && (r.None? || j < r.value) ==> !OccursAt(s, pat, j)
    decreases |s| - k
  {
    if k + |pat| > |s| then None
    else if s[k..k + |pat|] == pat then Some(k)
    else FindFrom(s, pat, k + 1)
  }

  /** The leftmost occurrence of `pat` in `s`, given as an index `i`. */
  ghost predicate IsFirstOccurrence(s: string, pat: string, i: int) {
    OccursAt(s, pat, i) && forall j :: 0 <= j < i ==> !OccursAt(s, pat, j)
  }

  /** Python's `s.replace(pat, rep, 1)`: the leftmost occurrence of `pat`, if
      any, is replaced by `rep`; everything else is kept. */
  function ReplaceFirst(s: string, pat: string, rep: string): (r: string)
    ensures |rep| <= |pat| ==> |r| <= |s|
    ensures (forall j :: !OccursAt(s, pat, j)) ==> r == s
    ensures forall i :: IsFirstOccurrence(s, pat, i) ==> r == s[..i] + rep + s[i + |pat|..]
  {
    match FindFrom(s, pat, 0)
    case None => s
    case Some(i) => s[..i] + rep + s[i + |pat|..]
  }

  /** Stripping text padded on both sides with `chars` gives back the text,
      when the text itself neither starts nor ends with one of `chars`. */
  lemma StripCharsPadded(pre: string, t: string, post: string, chars: string)
    requires AllIn(pre, chars) && AllIn(post, chars)
    requires |t| > 0 && t[0] !in chars && t[|t| - 1] !in chars
    ensures StripChars(pre + t + post, chars) == t
  {
    var s := pre + t + post;
    assert s[..|pre|] == pre;
    assert s[|pre| + |t|..] == post;
    assert s[|pre|] == t[0] && s[|pre| + |t| - 1] == t[|t| - 1];
    StripCharsUnique(s, chars, |pre|, |pre| + |t|);
    assert s[|pre|..|pre| + |t|] == t;
  }

  /** Replacing the first occurrence of a prefix by nothing drops the prefix. */
  lemma ReplaceFirstPrefix(s: string, pat: string)
    requires StartsWith(s, pat)
    ensures ReplaceFirst(s, pat, "") == s[|pat|..]
  {
    assert IsFirstOccurrence(s, pat, 0);
    assert s[..0] + "" + s[|pat|..] == s[|pat|..];
  }

  /** In a string whose only newline is the last character, replacing the
      first newline by nothing drops that last character. */
  lemma ReplaceFirstTrailingNewline(d: string)
    requires '\n' !in d
    ensures ReplaceFirst(d + "\n", "\n", "") == d
  {
    var w := d + "\n";
    forall j | 0 <= j < |d| ensures !OccursAt(w, "\n", j) {
      assert w[j..j + 1] == [d[j]];
    }
    assert w[|d|..|d| + 1] == "\n";
    assert IsFirstOccurrence(w, "\n", |d|);
    assert w[..|d|] + "" + w[|d| + 1..] == d;
  }

  /** The text between a known opening and a known closing part, if `t`
      starts with the one and ends with the other (the way a prompt frames
      a field inside a tag pair). */
  function Unframe(t: string, open: string, close: string): (r: Option<string>)
    ensures r.Some? ==> |t| == |open| + |r.value| + |close|
    ensures r.Some? ==> t[..|open|] == open && t[|open|..|open| + |r.value|] == r.value && t[|open| + |r.value|..] == close
  {
    if |t| >= |open| + |close| && t[..|open|] == open && t[|t| - |close|..] == close
    then Some(t[|open|..|t| - |close|])
    else None
  }

  /** Framing loses nothing: the framed text is read back exactly. */
  lemma UnframeFramed(open: string, body: string, close: string)
    ensures Unframe(open + body + close, open, close) == Some(body)
  {
    var t := open + body + close;
    assert t[..|open|] == open;
    assert t[|t| - |close|..] == close;
    assert t[|open|..|t| - |close|] == body;
  }
}
